=== FILE: README.md ===
# Pink Unicorn drawing-board clients in Dafny

Pink Unicorn is a shared drawing board. Several thin clients read and write the
same shape records through a sync SDK:

- a Xamarin.Forms app (C#);
- an Android Compose app (Kotlin);
- a React web page (TypeScript);
- two SwiftUI apps;
- a C++ experiment that talks HTTP through libcurl.

Each client has a little logic of its own around those records, and this project models that logic:

- **C++ libcurl callbacks** (`curl_callbacks.dfy`). The body callback appends to the
  response buffer. The header callback splits a line at its first colon, trims the
  value with two loops and inserts it into a `std::map` without overwriting.
- **Xamarin**:
  - `xamarin_view_model.dfy`: the viewport query over a shape's four stored edges, and the single `"viewPort"`
    subscription it keeps up to date (the subscription set is a `map`). It also
    holds the three pen setters.
  - `xamarin_drawing_page.dfy`: the page's pan/zoom state machine (`scale`,
    `offset`, `panOffset`).
  - `xamarin_models.dfy`: the stored record. It covers the shape-name codec, the
    mapping of colours onto a dynamically typed stored value, `Width`/`Height`
    and the points setter.
  - `xamarin_shape_icon.dfy`: the shape icon control. It covers the
    Transparent-as-null fill colour, the alpha promotion, the touch filter and
    the fill-then-stroke paint pass.
  - `skia_colors.dfy`: the SkiaSharp colour these modules share.
- **Android**:
  - `android_models.dfy`: the stored record. It covers the shape codec, the
    packed-RGB integer and the Compose colour, and the nullable fill colour.
  - `android_view_model.dfy`: the view model. It covers the loading state, the
    selected shape, and the random shape a tap creates. The random values are
    parameters.
- **React**:
  - `react_colors.dfy`: `rgbToHex` and `hex2Rgb`, with a model of JavaScript's
    `parseInt(…, 16)` and `slice`.
  - `react_board.dfy`: the shape a drag builds for each tool, the normalisation
    on mouse-up before insertion, and the move tool's offset.
- **SwiftUI**:
  - `ios_canvas.dfy`: the toolbar's edit-mode toggle and the render switch.
  - `swift_render_shapes.dfy`: the test app's colour decoding and its
    fill-versus-stroke choice.
  - Both Swift apps build the same polyline, so `PolylinePath` and `FrameOf`
    live in the shared `Geometry` module (`common.dfy`).
  - `rgb_channels.dfy` holds the byte extraction the Kotlin and Swift decoders
    share.

Coordinates are exact `real`s. Integers are unbounded, and each fixed width is
written out: C# `int`/`uint` reinterpretation, Kotlin's 32-bit `Int`, Swift's
64-bit `Int`. An event handler that updates fields is a method of a class whose
`modifies` clause names exactly the fields the source assigns. Each such method
is stated against a function of the old state, and the properties are proved
about those functions.

A few facts about the code shape the model:

- The Xamarin viewport subscription is a single add-or-update under the fixed
  name `"viewPort"`. The subscription set is never trimmed, and no subscription
  name carries coordinates.
- The Android loading state starts as `Hidden`. The synchronisation callbacks
  set it to `Hidden` or `Error`, and nothing ever sets it to `Loading`.
- The viewport query's comparisons are strict, but a zero-width viewport does
  not match nothing. It matches every shape that straddles its vertical line
  and overlaps it vertically (`ZeroWidthViewPortMatchesStraddler`).

## Model

| member | source | states |
|---|---|---|
| CurlCallbacks.CurlResponse.WriteCallback | cpp_experiment/pink_unicorn.cpp:42-48 | appends exactly the first `size*nmemb` received characters to the end of the buffer, keeps the earlier content, returns that count |
| CurlCallbacks.Find | cpp_experiment/pink_unicorn.cpp:56 | `find(':')`: none iff the character is absent; otherwise the first index holding it |
| CurlCallbacks.TrimmedValue | cpp_experiment/pink_unicorn.cpp:59-64 | the stored value is empty or has no leading space and no trailing CR/LF |
| CurlCallbacks.TrimmedValueIsInfix | cpp_experiment/pink_unicorn.cpp:58-64 | the value is the post-colon text minus a run of leading spaces and a run of trailing CR/LF; the middle (tabs, inner and trailing spaces, further colons) is untouched |
| CurlCallbacks.TrimmedValueUnique | cpp_experiment/pink_unicorn.cpp:59-64 | for text made of spaces, then a value with no leading space and no trailing CR/LF, then CR/LF characters, the trimmed value is exactly that value |
| CurlCallbacks.ParseHeaderLine | cpp_experiment/pink_unicorn.cpp:56-64 | no header iff the line has no ':'; the key is the text before the first ':' (so contains no ':'), the value is the trimmed text after it |
| CurlCallbacks.InsertNew | cpp_experiment/pink_unicorn.cpp:65 | `std::map::insert`: no header or an existing key leaves the map unchanged, a new key is added |
| CurlCallbacks.InsertNewKeepsFirst | cpp_experiment/pink_unicorn.cpp:65 | an existing entry is never overwritten, and no key other than the new one appears |
| CurlCallbacks.SplitHeaderLine | cpp_experiment/pink_unicorn.cpp:55-64 | the find, the two substrings and the two trimming loops compute exactly ParseHeaderLine of the line |
| CurlCallbacks.CurlResponse.HeaderCallback | cpp_experiment/pink_unicorn.cpp:50-73 | the map becomes InsertNew of the parsed line; a colon-less line leaves it unchanged; the result is always `size*nitems`; the stderr report happens exactly for ReportsSkippedLine |
| CurlCallbacks.SkippedLineReports | cpp_experiment/pink_unicorn.cpp:67-71 | no line starting `HTTP/` is ever reported, and neither is any line of at most five characters (so the blank line ending the headers is not) nor any line holding a colon |
| XamarinViewModel.InViewPort | xamarin/PinkUnicorn/ViewModels/DrawingVievModel.cs:35 | definition of the subscription query: the shape's left is before the viewport's right, its right after the viewport's left, and likewise for top and bottom, all strict; its meaning is stated by InViewPortMeansInteriorsMeet and the two lemmas after it |
| XamarinViewModel.InViewPortMeansInteriorsMeet | xamarin/PinkUnicorn/ViewModels/DrawingVievModel.cs:35 | for non-degenerate rectangles, the query matches a shape iff its interior meets the viewport's interior |
| XamarinViewModel.SeparatedShapeNotInViewPort | xamarin/PinkUnicorn/ViewModels/DrawingVievModel.cs:35 | a shape wholly right of, left of, below or above the viewport (touching included) never matches |
| XamarinViewModel.ZeroWidthViewPortMatchesStraddler | xamarin/PinkUnicorn/ViewModels/DrawingVievModel.cs:35 | a zero-width viewport matches a shape iff the shape strictly straddles its vertical line and overlaps it vertically |
| XamarinViewModel.WithViewPort | xamarin/PinkUnicorn/ViewModels/DrawingVievModel.cs:36-39 | after the upsert, "viewPort" maps to the new rectangle, every other name is untouched, and the set grows by one only when "viewPort" was absent |
| XamarinViewModel.ViewPortUpdateSupersedes | xamarin/PinkUnicorn/ViewModels/DrawingVievModel.cs:36-39 | two updates equal one update with the last viewport, and the second adds no entry |
| XamarinViewModel.UpdatedViewPortIsSubscribed | xamarin/PinkUnicorn/ViewModels/DrawingVievModel.cs:35-39 | after an update every shape matched by the new viewport is covered by the subscription set |
| XamarinViewModel.DrawingViewModel.UpdateSubscription | xamarin/PinkUnicorn/ViewModels/DrawingVievModel.cs:33-40 | the subscription set becomes WithViewPort of the old set |
| XamarinViewModel.DrawingViewModel.SetStrokeColor | xamarin/PinkUnicorn/ViewModels/DrawingVievModel.cs:17-18 | stores the colour and may change no other field |
| XamarinViewModel.DrawingViewModel.SetStrokeWidth | xamarin/PinkUnicorn/ViewModels/DrawingVievModel.cs:20-21 | stores the width and may change no other field |
| XamarinViewModel.DrawingViewModel.SetFillColor | xamarin/PinkUnicorn/ViewModels/DrawingVievModel.cs:23-24 | stores the colour and may change no other field |
| XamarinDrawingPage.DrawingPage.constructor | xamarin/PinkUnicorn/DrawingPage.xaml.cs:15-16 | scale 1, both offsets zero |
| XamarinDrawingPage.DrawingPage.PinchUpdated | xamarin/PinkUnicorn/DrawingPage.xaml.cs:78-83 | multiplies the scale by the gesture's scale and may change neither offset |
| XamarinDrawingPage.DrawingPage.Tapped | xamarin/PinkUnicorn/DrawingPage.xaml.cs:85-91 | scale 1 and offset zero, the pan offset untouched, so the effective offset is the pan offset |
| XamarinDrawingPage.DrawingPage.EffectiveOffset | xamarin/PinkUnicorn/DrawingPage.xaml.cs:114 | definition of the canvas translation: the offset plus the pan offset; PanUpdated and Tapped state how each changes |
| XamarinDrawingPage.DrawingPage.PanUpdated | xamarin/PinkUnicorn/DrawingPage.xaml.cs:94-114 | Running replaces the pan offset by the total translation; Completed folds it into the offset and keeps the effective offset; Canceled drops it so the effective offset is the offset; Started changes nothing |
| XamarinDrawingPage.DrawingPage.CanvasViewTouch | xamarin/PinkUnicorn/DrawingPage.xaml.cs:116-127 | every touch action is marked handled |
| XamarinModels.ShapeName | xamarin/PinkUnicorn/Models/Models.cs:94 | the stored name is lower case |
| XamarinModels.ParseShape | xamarin/PinkUnicorn/Models/Models.cs:88-92 | a case-insensitive match of an enum name gives that value; a string matching none gives Rectangle |
| XamarinModels.ShapeRoundTrip | xamarin/PinkUnicorn/Models/Models.cs:86-95 | set then get returns the shape, also when the stored text is upper case |
| XamarinModels.Component.Width | xamarin/PinkUnicorn/Models/Models.cs:52 | left plus width is right |
| XamarinModels.Component.Height | xamarin/PinkUnicorn/Models/Models.cs:54 | top plus height is bottom |
| XamarinModels.Component.SetPoints | xamarin/PinkUnicorn/Models/Models.cs:68-76 | the clear-then-append loop leaves exactly the given points, in order |
| XamarinModels.Component.GetShape | xamarin/PinkUnicorn/Models/Models.cs:86-93 | definition: ParseShape of the stored text, Rectangle when no name matches; ShapeRoundTrip and SetShape state what it reads back |
| XamarinModels.Component.SetShape | xamarin/PinkUnicorn/Models/Models.cs:94 | stores the lower-case name, and the getter reads back the same shape |
| XamarinModels.StoreStrokeColor | xamarin/PinkUnicorn/Models/Models.cs:103 | the colour is stored as an integer in the C# `int` range |
| XamarinModels.ReadStrokeColor | xamarin/PinkUnicorn/Models/Models.cs:102 | the getter yields no colour exactly for a stored Null, where the string cast throws |
| XamarinModels.ReadFillColor | xamarin/PinkUnicorn/Models/Models.cs:114 | the getter yields null exactly for a stored Null |
| XamarinModels.StrokeColorRoundTrip | xamarin/PinkUnicorn/Models/Models.cs:100-104 | set then get returns the same 32-bit colour, whatever parser strings would use |
| XamarinModels.StoreFillColor | xamarin/PinkUnicorn/Models/Models.cs:115 | null is stored as Null and nothing else is |
| XamarinModels.FillColorRoundTrip | xamarin/PinkUnicorn/Models/Models.cs:112-116 | set then get returns the fill colour, null included |
| XamarinModels.Component.SetStrokeColor | xamarin/PinkUnicorn/Models/Models.cs:100-104 | the stored value reads back as the colour |
| XamarinModels.Component.SetFillColor | xamarin/PinkUnicorn/Models/Models.cs:110-116 | the stored value reads back as the colour or null |
| SkiaColors.AsInt32 | xamarin/PinkUnicorn/Models/Models.cs:103 | `(int)(uint)c` is in the `int` range and has the colour's 32 bits |
| SkiaColors.Int32RoundTrip | xamarin/PinkUnicorn/Models/Models.cs:102-103 | reading the low 32 bits of the stored int back as `uint` gives the colour |
| SkiaColors.WithAlpha | xamarin/PinkUnicorn/DynamicShapeIcon.cs:123 | the new alpha with red, green and blue unchanged |
| XamarinShapeIcon.FillFromStore | xamarin/PinkUnicorn/DynamicShapeIcon.cs:74-78 | the getter's conversion gives null exactly for Transparent, so it never yields Transparent |
| XamarinShapeIcon.StoreFromFill | xamarin/PinkUnicorn/DynamicShapeIcon.cs:79 | definition of the setter's `?? SKColors.Transparent`; FillColorReadBack states the round trip |
| XamarinShapeIcon.ShapeIcon.FillColor | xamarin/PinkUnicorn/DynamicShapeIcon.cs:72-80 | the property never returns Transparent |
| XamarinShapeIcon.FillColorReadBack | xamarin/PinkUnicorn/DynamicShapeIcon.cs:72-80 | setting null or any colour but Transparent reads back unchanged; Transparent reads back as null |
| XamarinShapeIcon.ShapeIcon.constructor | xamarin/PinkUnicorn/DynamicShapeIcon.cs:21-69 | the defaults: Circle, Gray, width 1, Transparent (no fill) |
| XamarinShapeIcon.ShapeIcon.SetFillColor | xamarin/PinkUnicorn/DynamicShapeIcon.cs:72-80 | stores Transparent for null, and the getter returns null exactly for null and Transparent |
| XamarinShapeIcon.Opaque | xamarin/PinkUnicorn/DynamicShapeIcon.cs:122-127 | a non-Transparent colour with alpha 0 gets alpha 255; every other colour keeps its alpha; red, green and blue never change |
| XamarinShapeIcon.Inflate | xamarin/PinkUnicorn/DynamicShapeIcon.cs:136 | each edge moves by `d`, so width and height grow by `2d` around the same centre |
| XamarinShapeIcon.PenWidth | xamarin/PinkUnicorn/DynamicShapeIcon.cs:120 | definition of the paint pass's stroke width: the property as a share of 300 of the canvas width |
| XamarinShapeIcon.FigureBox | xamarin/PinkUnicorn/DynamicShapeIcon.cs:130-136 | the figure box is the canvas less one pen width across and one down |
| XamarinShapeIcon.StrokeFillsCanvas | xamarin/PinkUnicorn/DynamicShapeIcon.cs:130-136 | the figure box grown back by half the pen width is exactly the canvas |
| XamarinShapeIcon.ShapeCalls | xamarin/PinkUnicorn/DynamicShapeIcon.cs:139-154 | one draw call per paint for every shape but Triangle, and none for Triangle |
| XamarinShapeIcon.ShapeCallsFollowPaints | xamarin/PinkUnicorn/DynamicShapeIcon.cs:139-154 | for every shape but Triangle, the i-th draw call uses the i-th paint |
| XamarinShapeIcon.FillThenStroke | xamarin/PinkUnicorn/DynamicShapeIcon.cs:139-154 | every shape but Triangle gives a fill call then a stroke call; Triangle gives none |
| XamarinShapeIcon.ShapeIcon.OnTouch | xamarin/PinkUnicorn/DynamicShapeIcon.cs:103-113 | the touch handlers fire iff the action is Entered, Pressed or Moved; every event is handled |
| XamarinShapeIcon.ShapeIcon.PaintSurface | xamarin/PinkUnicorn/DynamicShapeIcon.cs:115-155 | the loop over [fill, stroke] yields ShapeCalls of the two paints: two calls (fill then stroke, colours made opaque) for every shape but Triangle, none for Triangle; Line and Path both draw the canvas diagonal |
| AndroidModels.ShapeName | android/PinkUnicorn/app/src/main/java/io/realm/pinkunicorn/model/Models.kt:80 | the stored name is lower case |
| AndroidModels.ParseShape | android/PinkUnicorn/app/src/main/java/io/realm/pinkunicorn/model/Models.kt:78 | a case-insensitive match of an enum name gives that value; anything else gives Unknown |
| AndroidModels.ShapeRoundTrip | android/PinkUnicorn/app/src/main/java/io/realm/pinkunicorn/model/Models.kt:77-81 | set then get returns the shape, also from upper-case text |
| AndroidModels.Component.GetShape | android/PinkUnicorn/app/src/main/java/io/realm/pinkunicorn/model/Models.kt:77-78 | definition: ParseShape of the stored text, UNKNOWN when no name matches; ShapeRoundTrip and SetShape state what it reads back |
| AndroidModels.Component.SetShape | android/PinkUnicorn/app/src/main/java/io/realm/pinkunicorn/model/Models.kt:79-81 | stores the lower-case name, and the getter reads back the same shape |
| AndroidModels.ConvertRgbToArgb | android/PinkUnicorn/app/src/main/java/io/realm/pinkunicorn/model/Models.kt:98-103 | opaque; red, green, blue are bits 16-23, 8-15, 0-7: packed back they are the low 24 bits |
| AndroidModels.HighBitsIgnored | android/PinkUnicorn/app/src/main/java/io/realm/pinkunicorn/model/Models.kt:98-103 | two stored ints with the same low 24 bits read back as the same colour |
| AndroidModels.ToArgb | android/PinkUnicorn/app/src/main/java/io/realm/pinkunicorn/model/Models.kt:96 | `toArgb()` is the four channels packed alpha-first, as a signed Int |
| AndroidModels.FillColorLosesAlpha | android/PinkUnicorn/app/src/main/java/io/realm/pinkunicorn/model/Models.kt:91-103 | a fill colour stored as ARGB reads back with its red, green and blue and alpha 255 |
| AndroidModels.Component.FillColor | android/PinkUnicorn/app/src/main/java/io/realm/pinkunicorn/model/Models.kt:91-95 | null exactly when null is stored, otherwise an opaque colour |
| AndroidModels.Component.SetFillColor | android/PinkUnicorn/app/src/main/java/io/realm/pinkunicorn/model/Models.kt:91-96 | null is stored as null and reads back as null; a colour reads back opaque with the same red, green and blue |
| AndroidModels.ToRgbAsWritten | android/PinkUnicorn/app/src/main/java/io/realm/pinkunicorn/model/Models.kt:105-110 | with Float channels each channel contributes 0 or 1, so the result is at most 0x010101 |
| AndroidModels.RedDoesNotRoundTrip | android/PinkUnicorn/app/src/main/java/io/realm/pinkunicorn/model/Models.kt:87-110 | Color.Red is stored as 0x010000 and reads back with red 1 |
| AndroidModels.ToRgb | android/PinkUnicorn/app/src/main/java/io/realm/pinkunicorn/model/Models.kt:105-110 | the packed value fits in 24 bits |
| AndroidModels.RgbRoundTrip | android/PinkUnicorn/app/src/main/java/io/realm/pinkunicorn/model/Models.kt:87-110 | a stroke colour stored with ToRgb reads back with the same red, green and blue, opaque |
| AndroidModels.AsWrittenReadBack | android/PinkUnicorn/app/src/main/java/io/realm/pinkunicorn/model/Models.kt:87-110 | a colour stored through the Float-channel `toRgb` reads back opaque with each channel 1 where it was 255 and 0 otherwise |
| AndroidModels.Component.StrokeColor | android/PinkUnicorn/app/src/main/java/io/realm/pinkunicorn/model/Models.kt:88 | the stroke colour always reads back opaque |
| AndroidModels.Component.SetStrokeColor | android/PinkUnicorn/app/src/main/java/io/realm/pinkunicorn/model/Models.kt:87-89 | stores the Float-channel `toRgb` of the colour, which reads back with each channel truncated to 0 or 1 |
| AndroidModels.Component.SetStrokeColorCorrected | android/PinkUnicorn/app/src/main/java/io/realm/pinkunicorn/model/Models.kt:87-89 | the setter with the corrected 8-bit packing: the stroke colour reads back opaque with the same red, green and blue |
| AndroidModels.Component.constructor | android/PinkUnicorn/app/src/main/java/io/realm/pinkunicorn/model/Models.kt:43-54 | the field defaults, including a stored fill colour of 0 rather than null |
| AndroidViewModel.DrawingBoardViewModel.constructor | android/PinkUnicorn/app/src/main/java/io/realm/pinkunicorn/DrawingBoardViewModel.kt:31-32 | no shape selected, loading state Hidden |
| AndroidViewModel.DrawingBoardViewModel.OnStateChange | android/PinkUnicorn/app/src/main/java/io/realm/pinkunicorn/DrawingBoardViewModel.kt:44-46 | sets Hidden; never Loading |
| AndroidViewModel.DrawingBoardViewModel.OnError | android/PinkUnicorn/app/src/main/java/io/realm/pinkunicorn/DrawingBoardViewModel.kt:48-51 | sets Error; never Loading |
| AndroidViewModel.DrawingBoardViewModel.SelectShape | android/PinkUnicorn/app/src/main/java/io/realm/pinkunicorn/DrawingBoardViewModel.kt:63-65 | the shape becomes selected, and the loading state is never Loading before or after |
| AndroidViewModel.RandomBox | android/PinkUnicorn/app/src/main/java/io/realm/pinkunicorn/DrawingBoardViewModel.kt:78-87 | the box is centred on the tap, and its width is `2*(w div 2)`, between `w-1` and `w`; the same holds vertically |
| AndroidViewModel.DrawingBoardViewModel.SetRandomSize | android/PinkUnicorn/app/src/main/java/io/realm/pinkunicorn/DrawingBoardViewModel.kt:78-87 | the component's four edges become RandomBox |
| AndroidViewModel.TrianglePoints | android/PinkUnicorn/app/src/main/java/io/realm/pinkunicorn/DrawingBoardViewModel.kt:92-97 | definition of the four points createRandomPath adds; TriangleIsClosed states their shape |
| AndroidViewModel.TriangleIsClosed | android/PinkUnicorn/app/src/main/java/io/realm/pinkunicorn/DrawingBoardViewModel.kt:90-98 | four points, the last equal to the first, apex midway on the top edge, base on the bottom edge, all inside the box |
| AndroidViewModel.DrawingBoardViewModel.CreateRandomPath | android/PinkUnicorn/app/src/main/java/io/realm/pinkunicorn/DrawingBoardViewModel.kt:90-98 | appends exactly the four triangle points after the existing ones |
| AndroidViewModel.PaletteSurvivesOnlyForBlack | android/PinkUnicorn/app/src/main/java/io/realm/pinkunicorn/DrawingBoardViewModel.kt:67 | of the four palette colours, only Black is unchanged by channel truncation |
| AndroidViewModel.RandomRecord | android/PinkUnicorn/app/src/main/java/io/realm/pinkunicorn/DrawingBoardViewModel.kt:110-144 | the record createRandomComponent builds; none exactly for UNKNOWN, where `TODO()` throws; RandomRecordReadsBack states its fields |
| AndroidViewModel.RandomRecordReadsBack | android/PinkUnicorn/app/src/main/java/io/realm/pinkunicorn/DrawingBoardViewModel.kt:67-144 | Unknown fails; otherwise the record reads back as: the requested shape, the palette stroke colour with its channels truncated (equal to the palette colour iff it is Black), a stroke width in [0, 10), a fill for circles and rectangles only, an extent centred on the tap, points for a path only, and the path closed |
| AndroidViewModel.DrawingBoardViewModel.StyledComponent | android/PinkUnicorn/app/src/main/java/io/realm/pinkunicorn/DrawingBoardViewModel.kt:111-136 | the `apply` block: a fresh component holding the fill's ARGB, the shape's name, the stroke width and the Float-channel `toRgb` of the stroke colour, other fields at their defaults |
| AndroidViewModel.DrawingBoardViewModel.CreateRandomComponent | android/PinkUnicorn/app/src/main/java/io/realm/pinkunicorn/DrawingBoardViewModel.kt:110-144 | fails exactly for Unknown; otherwise a fresh component whose fields are RandomRecord |
| AndroidViewModel.DrawingBoardViewModel.CanvasTapped | android/PinkUnicorn/app/src/main/java/io/realm/pinkunicorn/DrawingBoardViewModel.kt:100-108 | with no selection, nothing is inserted; with Unknown selected, it fails and nothing is inserted; otherwise exactly RandomRecord is appended; the loading state is never Loading before or after |
| ReactColors.ToHexString | react/src/App.tsx:107 | `toString(16)`: hex digits with no leading zero whose value is the number |
| ReactColors.ToHexStringLength | react/src/App.tsx:107 | the hex form has at most `k` digits iff the number is below `16^k` |
| ReactColors.RgbToHex | react/src/App.tsx:106-112 | at least two hex digits with the number's value; a '0' is added only in front of a single digit |
| ReactColors.Slice | react/src/App.tsx:118-120 | `slice` clamps both ends to the length, so a short text gives a shorter or empty slice |
| ReactColors.ParseInt16 | react/src/App.tsx:118-120 | definition of `parseInt(_, 16)`: sign, optional `0x`, the longest run of hex digits, NaN when there is none; ParseHexDigits and ParseStopsAtNonDigit state its results |
| ReactColors.ParseHexDigits | react/src/App.tsx:118-120 | `parseInt` of a run of hex digits is their value |
| ReactColors.ParseStopsAtNonDigit | react/src/App.tsx:118-120 | `parseInt(…, 16)` reads the longest run of hex digits and ignores what follows it |
| ReactColors.Hex2Rgb | react/src/App.tsx:114-117 | undefined and the empty string give 0 |
| ReactColors.Hex2RgbWellFormed | react/src/App.tsx:118-121 | for `#rrggbb` the result is `r*65536 + g*256 + b`, the value of the six digits, in [0, 0xFFFFFF] |
| ReactColors.HexRoundTrip | react/src/App.tsx:106-122 | `hex2Rgb('#' + rgbToHex(n)) == n` for `0x100000 <= n <= 0xFFFFFF` |
| ReactColors.BlueDoesNotRoundTrip | react/src/App.tsx:106-122 | `rgbToHex(0xFF)` is "ff", and `hex2Rgb("#ff")` is NaN |
| ReactColors.RgbToHex6 | react/src/App.tsx:106-112 | the corrected form: exactly six hex digits with the number's value |
| ReactColors.Hex6RoundTrip | react/src/App.tsx:106-122 | with six-digit padding, the round trip holds for every colour in [0, 0xFFFFFF] |
| ReactBoard.MinOf | react/src/App.tsx:321 | `Math.min(...xs)` is one of the values and no greater than any |
| ReactBoard.MaxOf | react/src/App.tsx:324 | `Math.max(...xs)` is one of the values and no smaller than any |
| ReactBoard.DraftFor | react/src/App.tsx:353-405 | the move tool builds no shape; every shape built for a path has at least one point |
| ReactBoard.DraftShapes | react/src/App.tsx:360-403 | the circle and rectangle tools keep start as left/top and end as right/bottom, unordered, with no points and the tool's name; the line tool's extent is min/max of its two ends and its points are exactly `[start, end]`; the path tool appends the new point after the earlier ones |
| ReactBoard.Normalised | react/src/App.tsx:299-333 | the normalisation keeps a path's points non-empty; NormalisedIsOrdered states the extent and the shifted points |
| ReactBoard.NormalisedIsOrdered | react/src/App.tsx:299-333 | the stored extent has left <= right and top <= bottom. For non-paths it is the corners moved by minus the offset. For paths every moved point lies inside it and each edge touches a point |
| ReactBoard.Board.StartDrawing | react/src/App.tsx:254-267 | a drag starts at the given point |
| ReactBoard.Board.Draw | react/src/App.tsx:340-425 | outside a drag nothing changes; in a drag the shape under construction becomes DraftFor of the tool (unchanged for move), and the path tool extends the points |
| ReactBoard.Board.FinishDrawing | react/src/App.tsx:269-339 | the move tool adds `end - start` to the offset. With a shape and a drag, the drag ends and the shape, normalised with the pre-event offset, is inserted and kept. Otherwise nothing is inserted |
| ReactBoard.Board.SelectTool | react/src/App.tsx:432-438 | the selected tool becomes the option chosen |
| ReactBoard.Board.SetColor | react/src/App.tsx:440 | the picked colour's hex text becomes the board colour |
| IosCanvas.ButtonTool | ios/Shared/Views/CanvasView.swift:36-78 | each of the three toolbar buttons selects a drawing tool, never Unknown |
| IosCanvas.Toggled | ios/Shared/Views/CanvasView.swift:39-43 | the new mode is the button's tool or Unknown, and it is Unknown iff that tool was already selected |
| IosCanvas.PressTwice | ios/Shared/Views/CanvasView.swift:39-71 | from any other mode, pressing one tool twice ends in Unknown |
| IosCanvas.SwitchTool | ios/Shared/Views/CanvasView.swift:39-71 | pressing another tool's button while one is selected switches straight to it |
| IosCanvas.CanvasView.Press | ios/Shared/Views/CanvasView.swift:38-79 | each of the three buttons toggles the mode by Toggled |
| Geometry.PolylinePath | ios/Shared/Views/CanvasView.swift:91-102 | nothing for fewer than two points, else a move to the first point and a line to each later point, in order (the test app's `GenericShape` builds the same path) |
| Geometry.Polyline | misc/Realm_SwiftSdk_Nicola/RealmTest/RenderShapesView.swift:25-39 | the path built as a value is a polyline through exactly the points, as PolylinePath builds it |
| Geometry.PolylineVisitsPoints | misc/Realm_SwiftSdk_Nicola/RealmTest/RenderShapesView.swift:32-37 | a polyline of two or more points visits exactly those points, one move then lines only |
| Geometry.FrameOf | ios/Shared/Views/CanvasView.swift:105-119 | origin (left, top), and origin plus size is (right, bottom) |
| IosCanvas.Render | ios/Shared/Views/CanvasView.swift:16-30 | paths, circles and rectangles are stroked with the stroke width; a path is the polyline through the points, a circle the ellipse and a rectangle the rect spanning the stored corners; Unknown draws nothing |
| SwiftRenderShapes.ToColor | misc/Realm_SwiftSdk_Nicola/RealmTest/RenderShapesView.swift:42-47 | alpha is 1.0; the red, green and blue bytes packed back are the low 24 bits |
| SwiftRenderShapes.ToColorIgnoresHighBits | misc/Realm_SwiftSdk_Nicola/RealmTest/RenderShapesView.swift:42-47 | bits above 23 have no effect on the colour |
| SwiftRenderShapes.Render | misc/Realm_SwiftSdk_Nicola/RealmTest/RenderShapesView.swift:71-101 | an integer fill colour means filled with it; otherwise stroked with the stroke width and `strokeColor.intValue ?? 0`; Unknown draws nothing |
| SwiftRenderShapes.RenderIsOpaque | misc/Realm_SwiftSdk_Nicola/RealmTest/RenderShapesView.swift:74-100 | whatever is drawn is opaque; with no integer colours the shape is stroked in black |

## Left out

- Networking and process setup of the C++ experiment (`do_curl_request`, the transport class, `main`), all sync SDK calls (subscription updates and waits, transactions, queries, MongoDB `find`/`insertOne`), the login and bootstrap screens, and all drawing code other than the shape-icon paint pass: I/O and UI with no logic of their own. The realm insertions become appends to a sequence of records.
- CurlCallbacks.CurlResponse.WriteCallback: `size * nmemb` is unbounded here and is required to fit the buffer; the `size_t` product wrapping around is not modelled.
- XamarinModels.ParseShape: only ASCII case folding and exact names are modelled; `Enum.TryParse` also accepts numbers, comma-separated flag lists and surrounding white space, which are not modelled.
- AndroidModels.ParseShape: only ASCII case folding; Kotlin's Unicode-aware `equals(ignoreCase = true)` is not modelled.
- XamarinModels.ReadStrokeColor: a string value is handed to `SKColor.Parse`, which is a parameter; reading a Null stroke colour is modelled as no colour, standing for the exception the string cast raises.
- AndroidModels.ToRgbAsWritten: the Float arithmetic is modelled by its outcome (each channel over 255 truncates to 1 for 255 and 0 otherwise), not step by step in IEEE single precision.
- The Float/Double conversions of every stored coordinate and stroke width, the stroke width scaling of the shape icon, the `/255` channel scaling on the Swift side, and the IEEE rounding of the pinch scale: coordinates and widths are exact reals.
- ReactColors.ParseInt16: leading white space is not skipped, and only integer results are modelled (the only inputs are slices of the colour text).
- ReactColors.RgbToHex: only non-negative integer inputs are modelled; `toString(16)` of a negative or NaN number is not.
- React's asynchronous state updates are modelled as each event handler seeing the state left by the previous one. The remote insert's own failure modes (for example, a re-submitted document with the same id) are not modelled.
- The Swift `Color(rgbInt:)` initialiser in the iOS canvas, which formats the integer in decimal and scans it as hex, is not modelled. The iOS render switch is modelled without stroke colours.
- Randomness (`Random.nextInt`, `listOf(...).random()`) is replaced by a `Draws` parameter whose ranges are those of the calls.
- The Xamarin property-change notifications (`SetAndRaise`, `InvalidateSurface`, `Refresh`) and the console logging of the gesture handlers have no state the model tracks.
- AnyRealmValue kinds other than integers and nothing (booleans, strings, dates, ...) are collapsed into one "other" case, which the renderer treats like nothing.

## Findings

| source | as written | input that shows it | evidently intended | confidence | as-written member | corrected member |
|---|---|---|---|---|---|---|
| react/src/App.tsx:106-112 | `rgbToHex` pads the hex form only to two digits, but `hex2Rgb` and the canvas stroke style expect six | `0xFF` (blue): `'#' + rgbToHex(0xFF)` is `"#ff"`, which `hex2Rgb` reads as NaN | pad to six digits, so that every colour in [0, 0xFFFFFF] round-trips | not executed | ReactColors.BlueDoesNotRoundTrip | ReactColors.Hex6RoundTrip |
| android/PinkUnicorn/app/src/main/java/io/realm/pinkunicorn/model/Models.kt:105-110 | `Color.toRgb` packs Compose's Float channels (0.0 to 1.0) with `toInt()`, so each channel contributes 0 or 1 | `Color.Red` is stored as `0x010000` and reads back with red 1 | pack the 8-bit channels, so that an opaque stroke colour reads back unchanged | not executed | AndroidModels.RedDoesNotRoundTrip | AndroidModels.RgbRoundTrip |

`AndroidModels.Component.SetStrokeColor` and the random shapes of the view model store the stroke colour as written. `AndroidModels.Component.SetStrokeColorCorrected` is the setter with the corrected `ToRgb`.

Separately, React's `finishDrawing` never clears the shape under construction, and its normalisation changes that same object. A later mouse-up with the move tool, or a click without a drag, therefore re-submits the last shape to `insertOne` with the same `_id`, shifted once more by the offset. The server rejects that document as a duplicate, and `inserted` in the model records submissions, not stored documents. `ReactBoard.Board.FinishDrawing` states this behaviour as it is.

=== FILE: android_models.dfy ===
/** The Android client's stored shape record (io.realm.pinkunicorn.model.Component):
    the shape name codec and the mapping between Compose colours and the
    32-bit integers the record stores. */
module AndroidModels {
  import opened Common
  import opened Geometry
  import opened RgbChannels

  datatype Shape = Circle | Path | Rectangle | Unknown

  /** `name.lowercase()`. */
  function ShapeName(s: Shape): (name: string)
    ensures IsLowerCase(name)
  {
    match s
    case Circle => "circle"
    case Path => "path"
    case Rectangle => "rectangle"
    case Unknown => "unknown"
  }

  /** The shape getter: the first enum value whose name equals the stored text
      ignoring case, and Unknown when there is none. */
  function ParseShape(stored: string): (s: Shape)
    ensures (exists t :: EqualsIgnoreCase(stored, ShapeName(t))) ==> EqualsIgnoreCase(stored, ShapeName(s))
    ensures (forall t :: !EqualsIgnoreCase(stored, ShapeName(t))) ==> s == Unknown
  {
    LowerOfLowerCase(ShapeName(Circle));
    LowerOfLowerCase(ShapeName(Path));
    LowerOfLowerCase(ShapeName(Rectangle));
    LowerOfLowerCase(ShapeName(Unknown));
    var l := Lower(stored);
    if l == "circle" then Circle
    else if l == "path" then Path
    else if l == "rectangle" then Rectangle
    else Unknown
  }

  /** Writing a shape and reading it back gives the same shape, whatever the
      case of the stored text. */
  lemma {:induction false} ShapeRoundTrip(s: Shape)
    ensures ParseShape(ShapeName(s)) == s
    ensures ParseShape(Upper(ShapeName(s))) == s
  {
    LowerOfLowerCase(ShapeName(s));
    UpperAgreesIgnoringCase(ShapeName(s));
  }

  /** A Kotlin Int: 32-bit two's complement. */
  type KInt = i: int | -0x8000_0000 <= i < 0x8000_0000

  /** A Compose sRGB colour by its four 8-bit channels. */
  datatype Color = Color(alpha: Byte, red: Byte, green: Byte, blue: Byte)

  const Black: Color := Color(0xFF, 0, 0, 0)
  const Red: Color := Color(0xFF, 0xFF, 0, 0)
  const Green: Color := Color(0xFF, 0, 0xFF, 0)
  const Blue: Color := Color(0xFF, 0, 0, 0xFF)

  /** The low 32 bits of an integer as a Kotlin Int. */
  function Wrap(i: int): (k: KInt)
    ensures (k - i) % 0x1_0000_0000 == 0
  {
    var m := i % 0x1_0000_0000;
    if m < 0x8000_0000 then m else m - 0x1_0000_0000
  }

  /** convertRgbToArgb: the red, green and blue bytes of the low 24 bits, opaque. */
  function ConvertRgbToArgb(rgb: KInt): (c: Color)
    ensures c.alpha == 0xFF
    ensures (c.red * 0x100 + c.green) * 0x100 + c.blue == rgb % 0x100_0000
  {
    LowBytes(rgb);
    Color(0xFF, RedByte(rgb), GreenByte(rgb), BlueByte(rgb))
  }

  /** Only the low 24 bits of the stored value matter to the getter. */
  lemma HighBitsIgnored(a: KInt, b: KInt)
    requires a % 0x100_0000 == b % 0x100_0000
    ensures ConvertRgbToArgb(a) == ConvertRgbToArgb(b)
  {
    var ca, cb := ConvertRgbToArgb(a), ConvertRgbToArgb(b);
    PackedChannels(ca.red, ca.green, ca.blue, cb.red, cb.green, cb.blue);
  }

  /** Compose `Color.toArgb()`: alpha in the top byte, as a signed Int. */
  function ToArgb(c: Color): (k: KInt)
    ensures k % 0x1_0000_0000 == ((c.alpha * 0x100 + c.red) * 0x100 + c.green) * 0x100 + c.blue
  {
    Wrap(((c.alpha * 0x100 + c.red) * 0x100 + c.green) * 0x100 + c.blue)
  }

  /** `channel.toInt()` on a Compose Float channel: the byte over 255 is in
      [0, 1], so truncation gives 1 for 255 and 0 for every other byte. */
  function TruncatedChannel(b: Byte): (t: int)
    ensures t == 0 || t == 1
  {
    if b == 0xFF then 1 else 0
  }

  /** Color.toRgb as written: the channels are Floats in [0, 1], so each
      contributes its truncation rather than its byte. */
  function ToRgbAsWritten(c: Color): (k: KInt)
    ensures 0 <= k <= 0x01_0101
  {
    (TruncatedChannel(c.red) * 0x100 + TruncatedChannel(c.green)) * 0x100 + TruncatedChannel(c.blue)
  }

  /** The colour whose channels are those of `c` truncated, opaque. */
  function TruncatedColor(c: Color): Color {
    Color(0xFF, TruncatedChannel(c.red), TruncatedChannel(c.green), TruncatedChannel(c.blue))
  }

  /** A colour stored through the written conversion reads back opaque with
      each channel truncated: 1 where the byte was 255, 0 everywhere else. */
  lemma {:induction false} AsWrittenReadBack(c: Color)
    ensures ConvertRgbToArgb(ToRgbAsWritten(c)) == TruncatedColor(c)
  {
    var d := ConvertRgbToArgb(ToRgbAsWritten(c));
    PackedChannels(d.red, d.green, d.blue, TruncatedChannel(c.red), TruncatedChannel(c.green), TruncatedChannel(c.blue));
  }

  /** Storing Color.Red through the written conversion and reading it back gives
      a red byte of 1, not 255. */
  lemma RedDoesNotRoundTrip()
    ensures ToRgbAsWritten(Red) == 0x01_0000
    ensures ConvertRgbToArgb(ToRgbAsWritten(Red)) == Color(0xFF, 1, 0, 0)
    ensures ConvertRgbToArgb(ToRgbAsWritten(Red)) != Red
  {
    var c := ConvertRgbToArgb(ToRgbAsWritten(Red));
    PackedChannels(c.red, c.green, c.blue, 1, 0, 0);
  }

  /** Color.toRgb with the 8-bit channels: red, green and blue packed into 24 bits. */
  function ToRgb(c: Color): (k: KInt)
    ensures 0 <= k < 0x100_0000
  {
    (c.red * 0x100 + c.green) * 0x100 + c.blue
  }

  /** An opaque colour stored with ToRgb reads back unchanged; any other colour
      reads back with its red, green and blue and alpha 255. */
  lemma {:induction false} RgbRoundTrip(c: Color)
    ensures ConvertRgbToArgb(ToRgb(c)) == c.(alpha := 0xFF)
  {
    var d := ConvertRgbToArgb(ToRgb(c));
    PackedChannels(d.red, d.green, d.blue, c.red, c.green, c.blue);
  }

  /** The fill colour stored as ARGB reads back with its alpha replaced by 255:
      the getter decodes it with convertRgbToArgb. */
  lemma {:induction false} FillColorLosesAlpha(c: Color)
    ensures ConvertRgbToArgb(ToArgb(c)) == c.(alpha := 0xFF)
  {
    ArgbLowBits(c);
    var d := ConvertRgbToArgb(ToArgb(c));
    PackedChannels(d.red, d.green, d.blue, c.red, c.green, c.blue);
  }

  /** The low 24 bits of the ARGB Int are the packed red, green and blue. */
  lemma ArgbLowBits(c: Color)
    ensures (ToArgb(c) as int) % 0x100_0000 == (c.red * 0x100 + c.green) * 0x100 + c.blue
  {
    var low := (c.red * 0x100 + c.green) * 0x100 + c.blue;
    var m := c.alpha * 0x100_0000 + low;
    ModOfMod(ToArgb(c) as int, m);
    assert 0 <= low < 0x100_0000;
    assert m % 0x100_0000 == low;
  }

  /** Reducing modulo 2^32 first does not change the value modulo 2^24. */
  lemma ModOfMod(k: int, m: int)
    requires k % 0x1_0000_0000 == m
    ensures k % 0x100_0000 == m % 0x100_0000
  {
    var q := k / 0x1_0000_0000;
    var t, r := m / 0x100_0000, m % 0x100_0000;
    assert m == t * 0x100_0000 + r;
    assert k == (q * 0x100 + t) * 0x100_0000 + r;
  }

  /** The record's stored fields. */
  datatype Stored = Stored(
    top: real, left: real, right: real, bottom: real, z: real,
    shape: string, strokeWidth: real, strokeColor: KInt, fillColor: Option<KInt>,
    points: seq<Point>)

  /** A shape record with its backing fields and the typed view over them. */
  class Component {
    var top: real
    var left: real
    var right: real
    var bottom: real
    var z: real
    var shapeText: string
    var strokeWidth: real
    var strokeColorValue: KInt
    var fillColorValue: Option<KInt>
    var points: seq<Point>

    /** The field defaults: coordinates 0, empty shape text, colours 0, no points. */
    constructor ()
      ensures top == 0.0 && left == 0.0 && right == 0.0 && bottom == 0.0 && z == 0.0
      ensures shapeText == "" && strokeWidth == 0.0 && strokeColorValue == 0
      ensures fillColorValue == Some(0) && points == []
      ensures Record() == Stored(0.0, 0.0, 0.0, 0.0, 0.0, "", 0.0, 0, Some(0), [])
    {
      top, left, right, bottom, z := 0.0, 0.0, 0.0, 0.0, 0.0;
      shapeText := "";
      strokeWidth := 0.0;
      strokeColorValue := 0;
      fillColorValue := Some(0);
      points := [];
    }

    function Record(): Stored
      reads this
    {
      Stored(top, left, right, bottom, z, shapeText, strokeWidth, strokeColorValue, fillColorValue, points)
    }

    function GetShape(): Shape
      reads this`shapeText
    {
      ParseShape(shapeText)
    }

    method SetShape(s: Shape)
      modifies this`shapeText
      ensures shapeText == ShapeName(s) && GetShape() == s
    {
      shapeText := ShapeName(s);
      ShapeRoundTrip(s);
    }

    /** The strokeColor getter: always opaque. */
    function StrokeColor(): (c: Color)
      reads this`strokeColorValue
      ensures c.alpha == 0xFF
    {
      ConvertRgbToArgb(strokeColorValue)
    }

    /** The strokeColor setter as written: the colour goes through the
        Float-channel toRgb, so it reads back with each channel truncated to 0 or 1. */
    method SetStrokeColor(c: Color)
      modifies this`strokeColorValue
      ensures strokeColorValue == ToRgbAsWritten(c)
      ensures StrokeColor() == TruncatedColor(c)
    {
      strokeColorValue := ToRgbAsWritten(c);
      AsWrittenReadBack(c);
    }

    /** The strokeColor setter with the corrected 8-bit toRgb: the colour reads
        back opaque with the same red, green and blue. */
    method SetStrokeColorCorrected(c: Color)
      modifies this`strokeColorValue
      ensures strokeColorValue == ToRgb(c)
      ensures StrokeColor() == c.(alpha := 0xFF)
    {
      strokeColorValue := ToRgb(c);
      RgbRoundTrip(c);
    }

    /** The fillColor getter: null exactly when null is stored, otherwise opaque. */
    function FillColor(): (c: Option<Color>)
      reads this`fillColorValue
      ensures c.None? <==> fillColorValue.None?
      ensures c.Some? ==> c.value.alpha == 0xFF
    {
      match fillColorValue
      case None => None
      case Some(fc) => Some(ConvertRgbToArgb(fc))
    }

    /** The fillColor setter: null is stored as null, a colour as its ARGB Int;
        it reads back with alpha 255. */
    method SetFillColor(c: Option<Color>)
      modifies this`fillColorValue
      ensures fillColorValue == (match c case None => None case Some(color) => Some(ToArgb(color)))
      ensures FillColor() == (match c case None => None case Some(color) => Some(color.(alpha := 0xFF)))
    {
      match c {
        case None =>
          fillColorValue := None;
        case Some(color) =>
          fillColorValue := Some(ToArgb(color));
          FillColorLosesAlpha(color);
      }
    }
  }
}

=== FILE: android_view_model.dfy ===
/** The Android drawing board view model: the loading indicator driven by the
    first synchronisation, the selected shape, and the random shape a tap on
    the canvas creates and inserts. */
module AndroidViewModel {
  import opened Common
  import opened Geometry
  import opened AndroidModels

  datatype LoadingState = Hidden | Loading | Error

  /** The values the random generator hands out for one new shape. */
  datatype Draws = Draws(width: int, height: int, strokeWidth: int, strokeColorIndex: int, fill: Color)

  /** `nextInt(200)` for the size, `nextInt(10)` for the stroke width, and one
      of the four palette entries for the stroke colour. */
  predicate ValidDraws(d: Draws) {
    0 <= d.width < 200 && 0 <= d.height < 200 && 0 <= d.strokeWidth < 10 && 0 <= d.strokeColorIndex < 4
  }

  /** getRandomStrokeColor's choices. */
  const StrokePalette: seq<Color> := [Black, Red, Green, Blue]

  /** The extent setRandomSize gives a shape. */
  datatype Box = Box(left: real, right: real, top: real, bottom: real)

  /** setRandomSize: the extent centred on the tap, each half-size being the
      drawn size halved with integer division. */
  function RandomBox(offset: Point, width: int, height: int): (b: Box)
    requires 0 <= width && 0 <= height
    ensures b.left + b.right == 2.0 * offset.x && b.top + b.bottom == 2.0 * offset.y
    ensures (width - 1) as real <= b.right - b.left <= width as real
    ensures (height - 1) as real <= b.bottom - b.top <= height as real
    ensures b.right - b.left == (2 * (width / 2)) as real && b.bottom - b.top == (2 * (height / 2)) as real
  {
    var hw, hh := (width / 2) as real, (height / 2) as real;
    Box(offset.x - hw, offset.x + hw, offset.y - hh, offset.y + hh)
  }

  /** createRandomPath's points: bottom-left, the middle of the top edge,
      bottom-right, and bottom-left again. */
  function TrianglePoints(b: Box): seq<Point> {
    [ Point(b.left, b.bottom),
      Point(b.left + (b.right - b.left) / 2.0, b.top),
      Point(b.right, b.bottom),
      Point(b.left, b.bottom) ]
  }

  predicate InBox(p: Point, b: Box) {
    b.left <= p.x <= b.right && b.top <= p.y <= b.bottom
  }

  /** The path is a closed triangle: it ends where it starts, its apex is on the
      top edge midway, its base is the bottom edge, and it stays in the box. */
  lemma TriangleIsClosed(b: Box)
    requires b.left <= b.right && b.top <= b.bottom
    ensures var ps := TrianglePoints(b);
      && |ps| == 4 && ps[0] == ps[3]
      && ps[1].y == b.top && ps[1].x - b.left == b.right - ps[1].x
      && ps[0].y == b.bottom && ps[2].y == b.bottom && ps[0].x == b.left && ps[2].x == b.right
      && forall i :: 0 <= i < |ps| ==> InBox(ps[i], b)
  {
  }

  /** Truncating the channels leaves a palette entry unchanged only for Black;
      Red, Green and Blue each lose their 255 channel to 1. */
  lemma {:induction false} PaletteSurvivesOnlyForBlack(i: int)
    requires 0 <= i < 4
    ensures TruncatedColor(StrokePalette[i]) == StrokePalette[i] <==> i == 0
  {
    var p := StrokePalette[i];
    if i == 0 {
      assert p == Black;
    } else if i == 1 {
      assert p == Red && TruncatedColor(p).red == 1;
    } else if i == 2 {
      assert p == Green && TruncatedColor(p).green == 1;
    } else {
      assert p == Blue && TruncatedColor(p).blue == 1;
    }
  }

  /** The record createRandomComponent builds for a shape, a tap and the random
      draws; None for Unknown, where the code calls TODO() and throws. */
  function RandomRecord(shape: Shape, offset: Point, d: Draws): (r: Option<Stored>)
    requires ValidDraws(d)
    ensures r.None? <==> shape == Unknown
  {
    if shape == Unknown then None
    else
      var b := RandomBox(offset, d.width, d.height);
      var fill := if shape == Path then None else Some(ToArgb(d.fill));
      Some(Stored(b.top, b.left, b.right, b.bottom, 0.0, ShapeName(shape), d.strokeWidth as real,
                  ToRgbAsWritten(StrokePalette[d.strokeColorIndex]), fill,
                  if shape == Path then TrianglePoints(b) else []))
  }

  /** A record whose fields are those createRandomComponent assigns is RandomRecord. */
  lemma RandomRecordOf(rec: Stored, shape: Shape, offset: Point, d: Draws)
    requires ValidDraws(d) && shape != Unknown
    requires var b := RandomBox(offset, d.width, d.height);
      rec.top == b.top && rec.left == b.left && rec.right == b.right && rec.bottom == b.bottom
    requires rec.z == 0.0 && rec.shape == ShapeName(shape) && rec.strokeWidth == d.strokeWidth as real
    requires rec.strokeColor == ToRgbAsWritten(StrokePalette[d.strokeColorIndex])
    requires rec.fillColor == if shape == Path then None else Some(ToArgb(d.fill))
    requires rec.points == if shape == Path then TrianglePoints(Box(rec.left, rec.right, rec.top, rec.bottom)) else []
    ensures RandomRecord(shape, offset, d) == Some(rec)
  {
  }

  /** What the new record reads back as: its shape, the palette colour with each
      channel truncated to 0 or 1 (so only Black survives unchanged), a stroke
      width below 10, an opaque fill for circles and rectangles and none for
      paths, an extent centred on the tap, and points only for a path. */
  lemma {:induction false} RandomRecordReadsBack(shape: Shape, offset: Point, d: Draws)
    requires ValidDraws(d)
    ensures RandomRecord(shape, offset, d).None? <==> shape == Unknown
    ensures shape != Unknown ==>
      var r := RandomRecord(shape, offset, d).value;
      && ParseShape(r.shape) == shape
      && ConvertRgbToArgb(r.strokeColor) == TruncatedColor(StrokePalette[d.strokeColorIndex])
      && (ConvertRgbToArgb(r.strokeColor) == StrokePalette[d.strokeColorIndex] <==> d.strokeColorIndex == 0)
      && 0.0 <= r.strokeWidth < 10.0
      && (shape == Path <==> r.fillColor.None?)
      && (shape != Path ==> ConvertRgbToArgb(r.fillColor.value) == d.fill.(alpha := 0xFF))
      && r.left + r.right == 2.0 * offset.x && r.top + r.bottom == 2.0 * offset.y
      && (shape == Path ==> |r.points| == 4 && r.points[0] == r.points[3])
      && (shape != Path ==> r.points == [])
  {
    if shape != Unknown {
      ShapeRoundTrip(shape);
      AsWrittenReadBack(StrokePalette[d.strokeColorIndex]);
      PaletteSurvivesOnlyForBlack(d.strokeColorIndex);
      FillColorLosesAlpha(d.fill);
    }
  }

  class DrawingBoardViewModel {
    var selectedShape: Option<Shape>
    var loadingState: LoadingState
    /** The records inserted into the realm, in insertion order. */
    var inserted: seq<Stored>

    /** The loading indicator is never put into the Loading state. */
    predicate Valid()
      reads this`loadingState
    {
      loadingState != Loading
    }

    constructor ()
      ensures selectedShape == None && loadingState == Hidden && inserted == []
      ensures Valid()
    {
      selectedShape := None;
      loadingState := Hidden;
      inserted := [];
    }

    /** The synchronisation callback's success path. */
    method OnStateChange()
      modifies this`loadingState
      ensures loadingState == Hidden && Valid()
    {
      loadingState := Hidden;
    }

    /** The synchronisation callback's error path. */
    method OnError()
      modifies this`loadingState
      ensures loadingState == Error && Valid()
    {
      loadingState := Error;
    }

    method SelectShape(shape: Shape)
      requires Valid()
      modifies this`selectedShape
      ensures selectedShape == Some(shape) && Valid()
    {
      selectedShape := Some(shape);
    }

    /** setRandomSize. */
    method SetRandomSize(component: Component, offset: Point, width: int, height: int)
      requires 0 <= width && 0 <= height
      modifies component`left, component`right, component`top, component`bottom
      ensures var b := RandomBox(offset, width, height);
        component.left == b.left && component.right == b.right
        && component.top == b.top && component.bottom == b.bottom
    {
      var hw, hh := (width / 2) as real, (height / 2) as real;
      component.left := offset.x - hw;
      component.right := offset.x + hw;
      component.top := offset.y - hh;
      component.bottom := offset.y + hh;
    }

    /** createRandomPath: appends the triangle over the component's extent. */
    method CreateRandomPath(component: Component)
      modifies component`points
      ensures component.points == old(component.points)
        + TrianglePoints(Box(component.left, component.right, component.top, component.bottom))
    {
      var l, t, r, b := component.left, component.top, component.right, component.bottom;
      component.points := component.points + [Point(l, b)];
      component.points := component.points + [Point(l + (r - l) / 2.0, t)];
      component.points := component.points + [Point(r, b)];
      component.points := component.points + [Point(l, b)];
    }

    /** The `Component().apply { ... }` block of createRandomComponent: a new
        component with the given fill, shape, stroke width and stroke colour,
        everything else at its default. */
    method StyledComponent(shape: Shape, fill: Option<Color>, strokeWidth: real, strokeColor: Color)
      returns (comp: Component)
      ensures fresh(comp)
      ensures comp.fillColorValue == (match fill case None => None case Some(f) => Some(ToArgb(f)))
      ensures comp.shapeText == ShapeName(shape) && comp.GetShape() == shape
      ensures comp.strokeWidth == strokeWidth
      ensures comp.strokeColorValue == ToRgbAsWritten(strokeColor)
      ensures comp.top == 0.0 && comp.left == 0.0 && comp.right == 0.0 && comp.bottom == 0.0
      ensures comp.z == 0.0 && comp.points == []
    {
      comp := new Component();
      comp.SetFillColor(fill);
      assert comp.fillColorValue == (match fill case None => None case Some(f) => Some(ToArgb(f)));
      comp.SetShape(shape);
      assert comp.GetShape() == shape;
      comp.strokeWidth := strokeWidth;
      comp.SetStrokeColor(strokeColor);
    }

    /** createRandomComponent; null stands for the exception TODO() throws on Unknown. */
    method CreateRandomComponent(shape: Shape, offset: Point, d: Draws) returns (comp: Component?)
      requires ValidDraws(d)
      ensures comp == null <==> shape == Unknown
      ensures comp != null ==> fresh(comp) && comp.Record() == RandomRecord(shape, offset, d).value
    {
      if shape == Unknown {
        return null;
      }
      var fill := if shape == Path then None else Some(d.fill);
      comp := StyledComponent(shape, fill, d.strokeWidth as real, StrokePalette[d.strokeColorIndex]);
      SetRandomSize(comp, offset, d.width, d.height);
      if comp.GetShape() == Path {
        CreateRandomPath(comp);
      }
      RandomRecordOf(comp.Record(), shape, offset, d);
    }

    /** canvasTapped: with a shape selected, inserts a new random record of that
        shape; with none selected, does nothing. `failed` stands for the
        exception an Unknown selection raises, which inserts nothing. */
    method CanvasTapped(offset: Point, d: Draws) returns (failed: bool)
      requires ValidDraws(d) && Valid()
      modifies this`inserted
      ensures Valid()
      ensures failed <==> selectedShape == Some(Unknown)
      ensures selectedShape.None? || failed ==> inserted == old(inserted)
      ensures selectedShape.Some? && !failed ==>
        inserted == old(inserted) + [RandomRecord(selectedShape.value, offset, d).value]
    {
      failed := false;
      match selectedShape {
        case None =>
        case Some(shape) =>
          var comp := CreateRandomComponent(shape, offset, d);
          if comp == null {
            failed := true;
          } else {
            inserted := inserted + [comp.Record()];
          }
      }
    }
  }
}

=== FILE: common.dfy ===
/** Small vocabulary shared by the per-platform modules. */
module Common {

  /** A value that may be absent: Kotlin/C#/Swift `null`, JavaScript `undefined`. */
  datatype Option<T> = None | Some(value: T)

  /** ASCII lower-casing of one character; every other character is kept. */
  function LowerChar(c: char): char {
    if 'A' <= c <= 'Z' then (c as int + 32) as char else c
  }

  /** ASCII upper-casing of one character; every other character is kept. */
  function UpperChar(c: char): char {
    if 'a' <= c <= 'z' then (c as int - 32) as char else c
  }

  function Lower(s: string): string {
    seq(|s|, i requires 0 <= i < |s| => LowerChar(s[i]))
  }

  function Upper(s: string): string {
    seq(|s|, i requires 0 <= i < |s| => UpperChar(s[i]))
  }

  predicate IsLowerCase(s: string) {
    forall i :: 0 <= i < |s| ==> !('A' <= s[i] <= 'Z')
  }

  /** Two strings that agree up to ASCII case (`equals(ignoreCase = true)`,
      `Enum.TryParse(..., ignoreCase: true)` restricted to ASCII). */
  predicate EqualsIgnoreCase(a: string, b: string) {
    Lower(a) == Lower(b)
  }

  /** A lower-case string is its own lower-case form. */
  lemma {:induction false} LowerOfLowerCase(s: string)
    requires IsLowerCase(s)
    ensures Lower(s) == s
  {
    assert forall i :: 0 <= i < |s| ==> Lower(s)[i] == s[i];
  }

  /** Upper-casing a lower-case string does not change what it equals ignoring case. */
  lemma {:induction false} UpperAgreesIgnoringCase(s: string)
    requires IsLowerCase(s)
    ensures EqualsIgnoreCase(Upper(s), s)
  {
    LowerOfLowerCase(s);
    forall i | 0 <= i < |s|
      ensures Lower(Upper(s))[i] == s[i]
    {
      var c := s[i];
      if 'a' <= c <= 'z' {
        assert UpperChar(c) == (c as int - 32) as char;
      }
    }
  }
}

/** Points, path commands and rectangles shared by the drawing clients. */
module Geometry {

  /** A point of the drawing board (SKPoint, CGPoint, `{x, y}`); coordinates are exact reals. */
  datatype Point = Point(x: real, y: real)

  const Origin: Point := Point(0.0, 0.0)

  function Add(a: Point, b: Point): Point {
    Point(a.x + b.x, a.y + b.y)
  }

  function Sub(a: Point, b: Point): Point {
    Point(a.x - b.x, a.y - b.y)
  }

  /** One command of a SwiftUI `Path`. */
  datatype PathElement = MoveTo(to: Point) | LineTo(to: Point)

  /** The points a path passes through, in order. */
  function Vertices(path: seq<PathElement>): (vs: seq<Point>)
    ensures |vs| == |path|
  {
    seq(|path|, i requires 0 <= i < |path| => path[i].to)
  }

  /** `path` is the open polyline through `points`: nothing for fewer than two
      points, otherwise one move to the first point and a line to each later one. */
  predicate IsPolyline(path: seq<PathElement>, points: seq<Point>) {
    if |points| <= 1 then path == []
    else
      && |path| == |points|
      && path[0] == MoveTo(points[0])
      && forall i :: 1 <= i < |points| ==> path[i] == LineTo(points[i])
  }

  /** A polyline visits exactly its points, in order, and draws one line fewer
      than it has points. */
  lemma {:induction false} PolylineVisitsPoints(path: seq<PathElement>, points: seq<Point>)
    requires IsPolyline(path, points) && |points| > 1
    ensures Vertices(path) == points
    ensures path[0].MoveTo? && forall i :: 1 <= i < |path| ==> path[i].LineTo?
  {
    assert forall i :: 0 <= i < |points| ==> Vertices(path)[i] == points[i];
  }

  /** The polyline as a value, for the renderers that are pure functions. */
  function Polyline(points: seq<Point>): (path: seq<PathElement>)
    ensures IsPolyline(path, points)
  {
    if |points| <= 1 then []
    else [MoveTo(points[0])] + seq(|points| - 1, i requires 0 <= i < |points| - 1 => LineTo(points[i + 1]))
  }

  /** `path(in:)` of a freehand shape: nothing for fewer than two points;
      otherwise a move to the first point and then, point by point, a line to
      each later one. */
  method PolylinePath(points: seq<Point>) returns (path: seq<PathElement>)
    ensures IsPolyline(path, points)
  {
    path := [];
    if |points| <= 1 {
      return;
    }
    path := path + [MoveTo(Point(points[0].x, points[0].y))];
    for index := 1 to |points|
      invariant |path| == index && path[0] == MoveTo(points[0])
      invariant forall i :: 1 <= i < index ==> path[i] == LineTo(points[i])
    {
      path := path + [LineTo(Point(points[index].x, points[index].y))];
    }
  }

  /** A CGRect: an origin and a size. */
  datatype Frame = Frame(origin: Point, width: real, height: real)

  /** The rect of a stored extent: origin (left, top), size (right - left, bottom - top). */
  function FrameOf(left: real, top: real, right: real, bottom: real): (f: Frame)
    ensures f.origin == Point(left, top)
    ensures Add(f.origin, Point(f.width, f.height)) == Point(right, bottom)
  {
    Frame(Point(left, top), right - left, bottom - top)
  }
}

=== FILE: curl_callbacks.dfy ===
/** The two libcurl callbacks of the C++ client: the body writer appends to the
    response buffer, the header callback splits one header line at its first
    colon, trims the value and inserts it into the header map without
    overwriting. */
module CurlCallbacks {
  import opened Common

  /** A parsed header line: the text before the first ':' and the trimmed rest. */
  datatype Header = Header(key: string, value: string)

  /** `std::string::find(c)`: the first index holding `c`, None for `npos`. */
  function Find(s: string, c: char): (r: Option<nat>)
    ensures r.None? <==> c !in s
    ensures r.Some? ==> r.value < |s| && s[r.value] == c && c !in s[..r.value]
  {
    if |s| == 0 then None
    else if s[0] == c then Some(0)
    else
      match Find(s[1..], c)
      case None => None
      case Some(i) =>
        assert s[..i + 1] == [s[0]] + s[1..][..i];
        Some(i + 1)
  }

  predicate IsLineBreak(c: char) {
    c == '\r' || c == '\n'
  }

  /** How many ' ' characters the first trimming loop removes. */
  function LeadingSpaces(s: string): (n: nat)
    ensures n <= |s|
    ensures forall i :: 0 <= i < n ==> s[i] == ' '
    ensures n < |s| ==> s[n] != ' '
  {
    if |s| > 0 && s[0] == ' ' then 1 + LeadingSpaces(s[1..]) else 0
  }

  /** How many '\r'/'\n' characters the second trimming loop removes. */
  function TrailingLineBreaks(s: string): (n: nat)
    ensures n <= |s|
    ensures forall i :: |s| - n <= i < |s| ==> IsLineBreak(s[i])
    ensures n < |s| ==> !IsLineBreak(s[|s| - 1 - n])
  {
    if |s| > 0 && IsLineBreak(s[|s| - 1]) then 1 + TrailingLineBreaks(s[..|s| - 1]) else 0
  }

  /** The header value curl_header_cb stores for the text after the colon:
      leading spaces and trailing CR/LF removed, nothing else touched. */
  function TrimmedValue(raw: string): (v: string)
    ensures v == [] || (v[0] != ' ' && !IsLineBreak(v[|v| - 1]))
  {
    var a := LeadingSpaces(raw);
    var rest := raw[a..];
    rest[..|rest| - TrailingLineBreaks(rest)]
  }

  predicate AllSpaces(s: string) {
    forall i :: 0 <= i < |s| ==> s[i] == ' '
  }

  predicate AllLineBreaks(s: string) {
    forall i :: 0 <= i < |s| ==> IsLineBreak(s[i])
  }

  /** The trimmed value sits between a run of spaces and a run of line breaks:
      the middle of the value (tabs, inner spaces, further colons) is untouched. */
  lemma {:induction false} TrimmedValueIsInfix(raw: string)
    ensures LeadingSpaces(raw) + |TrimmedValue(raw)| <= |raw|
    ensures raw == raw[..LeadingSpaces(raw)] + TrimmedValue(raw) + raw[LeadingSpaces(raw) + |TrimmedValue(raw)|..]
    ensures AllSpaces(raw[..LeadingSpaces(raw)])
    ensures AllLineBreaks(raw[LeadingSpaces(raw) + |TrimmedValue(raw)|..])
  {
    var a := LeadingSpaces(raw);
    var rest := raw[a..];
    var t := TrailingLineBreaks(rest);
    var v := rest[..|rest| - t];
    assert v == TrimmedValue(raw);
    SliceParts(raw, a, a + |v|);
    assert raw[a..a + |v|] == v;
  }

  /** A string is its prefix, its middle and its suffix. */
  lemma SliceParts(s: string, i: nat, j: nat)
    requires i <= j <= |s|
    ensures s == s[..i] + s[i..j] + s[j..]
  {
  }

  lemma {:induction false} LeadingSpacesOfSplit(s: string, r: string)
    requires AllSpaces(s) && (r == [] || r[0] != ' ')
    ensures LeadingSpaces(s + r) == |s|
  {
    if s != [] {
      assert (s + r)[1..] == s[1..] + r;
      LeadingSpacesOfSplit(s[1..], r);
    }
  }

  lemma {:induction false} TrailingLineBreaksOfSplit(r: string, t: string)
    requires AllLineBreaks(t) && (r == [] || !IsLineBreak(r[|r| - 1]))
    ensures TrailingLineBreaks(r + t) == |t|
  {
    if t != [] {
      var t' := t[..|t| - 1];
      assert (r + t)[..|r + t| - 1] == r + t';
      TrailingLineBreaksOfSplit(r, t');
    }
  }

  /** Any way of writing `raw` as spaces, then a value that neither starts with a
      space nor ends with a line break, then line breaks, gives the trimmed value:
      TrimmedValue is the unique such middle. */
  lemma {:induction false} TrimmedValueUnique(spaces: string, v: string, breaks: string)
    requires AllSpaces(spaces) && AllLineBreaks(breaks)
    requires v == [] || (v[0] != ' ' && !IsLineBreak(v[|v| - 1]))
    ensures TrimmedValue(spaces + v + breaks) == v
  {
    var raw := spaces + v + breaks;
    if v == [] {
      assert raw == spaces + breaks;
      assert breaks == [] || breaks[0] != ' ';
      LeadingSpacesOfSplit(spaces, breaks);
      assert raw[|spaces|..] == breaks;
      TrailingLineBreaksOfSplit([], breaks);
      assert [] + breaks == breaks;
    } else {
      assert raw == spaces + (v + breaks);
      LeadingSpacesOfSplit(spaces, v + breaks);
      assert raw[|spaces|..] == v + breaks;
      TrailingLineBreaksOfSplit(v, breaks);
      assert (v + breaks)[..|v|] == v;
    }
  }

  /** The header a line yields: None without a ':', otherwise the key before the
      first ':' and the trimmed text after it. */
  function ParseHeaderLine(line: string): (h: Option<Header>)
    ensures h.None? <==> ':' !in line
    ensures h.Some? ==>
      && |h.value.key| < |line|
      && line[..|h.value.key|] == h.value.key
      && ':' !in h.value.key
      && line[|h.value.key|] == ':'
      && h.value.value == TrimmedValue(line[|h.value.key| + 1..])
  {
    match Find(line, ':')
    case None => None
    case Some(pos) => Some(Header(line[..pos], TrimmedValue(line[pos + 1..])))
  }

  /** `std::map::insert`: adds the pair only when the key is absent. */
  function InsertNew(headers: map<string, string>, h: Option<Header>): (r: map<string, string>)
    ensures h.None? ==> r == headers
    ensures h.Some? && h.value.key in headers ==> r == headers
    ensures h.Some? && h.value.key !in headers ==> r == headers[h.value.key := h.value.value]
  {
    match h
    case None => headers
    case Some(Header(k, v)) => if k in headers then headers else headers[k := v]
  }

  /** Storing a header never drops or changes an earlier entry: the first value
      for a key wins, and the map grows by at most the new key. */
  lemma {:induction false} InsertNewKeepsFirst(headers: map<string, string>, h: Option<Header>, k: string)
    requires k in headers
    ensures k in InsertNew(headers, h) && InsertNew(headers, h)[k] == headers[k]
    ensures InsertNew(headers, h).Keys <= headers.Keys + (if h.Some? then {h.value.key} else {})
  {
    match h
    case None =>
    case Some(Header(key, v)) =>
      if key !in headers {
        assert InsertNew(headers, h) == headers[key := v];
      }
  }

  /** The split and the two trimming loops of curl_header_cb, on the line
      `combined` built from the callback's buffer. */
  method SplitHeaderLine(combined: string) returns (found: bool, key: string, value: string)
    ensures found <==> ':' in combined
    ensures found ==> ParseHeaderLine(combined) == Some(Header(key, value))
  {
    var pos := Find(combined, ':');
    if pos.None? {
      return false, "", "";
    }
    found := true;
    key := combined[..pos.value];
    var raw := combined[pos.value + 1..];
    value := raw;
    ghost var a := 0;
    while |value| > 0 && value[0] == ' '
      invariant a <= LeadingSpaces(raw)
      invariant value == raw[a..]
    {
      value := value[1..];
      a := a + 1;
    }
    ghost var rest := value;
    assert a == LeadingSpaces(raw);
    ghost var t := 0;
    while |value| > 0 && IsLineBreak(value[|value| - 1])
      invariant t <= TrailingLineBreaks(rest)
      invariant value == rest[..|rest| - t]
    {
      value := value[..|value| - 1];
      t := t + 1;
    }
    assert t == TrailingLineBreaks(rest);
    assert value == TrimmedValue(raw);
  }

  /** The response buffer and header map that the request code hands to curl's
      callbacks. */
  class CurlResponse {
    var body: string
    var headers: map<string, string>

    constructor ()
      ensures body == [] && headers == map[]
    {
      body := [];
      headers := map[];
    }

    /** curl_write_cb: appends the `size * nmemb` received bytes and reports them all consumed. */
    method WriteCallback(data: string, size: nat, nmemb: nat) returns (consumed: nat)
      requires size * nmemb <= |data|
      modifies this
      ensures consumed == size * nmemb
      ensures body == old(body) + data[..consumed]
      ensures headers == old(headers)
    {
      consumed := size * nmemb;
      body := body + data[..consumed];
    }

    /** curl_header_cb: stores the header the line carries (if any, and only if
        its key is new) and always reports the whole line consumed; `logged`
        says whether the line is written to stderr as skipped. */
    method HeaderCallback(buffer: string, size: nat, nitems: nat) returns (consumed: nat, logged: bool)
      requires size * nitems <= |buffer|
      modifies this
      ensures consumed == size * nitems
      ensures headers == InsertNew(old(headers), ParseHeaderLine(buffer[..consumed]))
      ensures logged == ReportsSkippedLine(buffer[..consumed])
      ensures body == old(body)
    {
      var combined := buffer[..size * nitems];
      var found, key, value := SplitHeaderLine(combined);
      logged := false;
      if found {
        if key !in headers {
          headers := headers[key := value];
        }
      } else {
        logged := |combined| > 5 && combined[..5] != "HTTP/";
      }
      consumed := nitems * size;
    }
  }

  /** The header callback reports (on stderr) a colon-less line longer than five
      characters unless it starts with "HTTP/". */
  predicate ReportsSkippedLine(combined: string) {
    ':' !in combined && |combined| > 5 && combined[..5] != "HTTP/"
  }

  /** Status lines (those starting `HTTP/`), the blank line that ends the
      headers and any other line of at most five characters are skipped
      silently, and so is every line holding a colon. */
  lemma SkippedLineReports(s: string)
    ensures !ReportsSkippedLine("HTTP/" + s)
    ensures |s| <= 5 ==> !ReportsSkippedLine(s)
    ensures ':' in s ==> !ReportsSkippedLine(s)
  {
    assert ("HTTP/" + s)[..5] == "HTTP/";
  }
}

=== FILE: ios_canvas.dfy ===
/** The SwiftUI canvas: the toolbar's edit-mode toggle and how a stored
    component is turned into a stroked path, ellipse or rectangle. */
module IosCanvas {
  import opened Common
  import opened Geometry

  /** The persisted shape enum. */
  datatype ShapeType = Circle | Rectangle | Path | Unknown

  /** The three toolbar buttons. */
  datatype ToolButton = CircleButton | RectangleButton | PathButton

  /** The mode a button selects. */
  function ButtonTool(b: ToolButton): (t: ShapeType)
    ensures t != Unknown
  {
    match b
    case CircleButton => Circle
    case RectangleButton => Rectangle
    case PathButton => Path
  }

  /** A button press: selects the button's tool, or deselects it (back to
      Unknown) when it is already selected. */
  function Toggled(mode: ShapeType, tool: ShapeType): (r: ShapeType)
    ensures r == tool || r == Unknown
    ensures r == Unknown <==> mode == tool || tool == Unknown
  {
    if mode == tool then Unknown else tool
  }

  /** Pressing the same tool's button twice from any other mode deselects it;
      from that tool's own mode it selects it again. */
  lemma PressTwice(mode: ShapeType, b: ToolButton)
    ensures Toggled(Toggled(mode, ButtonTool(b)), ButtonTool(b)) == if mode == ButtonTool(b) then ButtonTool(b) else Unknown
  {
  }

  /** At most one tool is selected, and pressing another tool's button switches
      straight to it. */
  lemma SwitchTool(b: ToolButton, c: ToolButton)
    requires b != c
    ensures Toggled(ButtonTool(b), ButtonTool(c)) == ButtonTool(c)
  {
  }

  class CanvasView {
    var editMode: ShapeType

    constructor ()
      ensures editMode == Unknown
    {
      editMode := Unknown;
    }

    /** A toolbar button's action. */
    method Press(b: ToolButton)
      modifies this`editMode
      ensures editMode == Toggled(old(editMode), ButtonTool(b))
    {
      var tool := ButtonTool(b);
      if editMode == tool {
        editMode := Unknown;
      } else {
        editMode := tool;
      }
    }
  }

  /** A stored component, as the renderer reads it. */
  datatype Component = Component(
    shape: ShapeType, strokeColor: int, strokeWidth: real, fillColor: Option<int>,
    top: real, right: real, bottom: real, left: real, z: real, points: seq<Point>)

  /** What the canvas draws for a component: a stroked figure and its line width. */
  datatype Figure = PathFigure(path: seq<PathElement>) | Ellipse(frame: Frame) | Rect(frame: Frame)
  datatype Stroked = Stroked(figure: Figure, lineWidth: real)

  /** A frame from the component's top-left corner to its bottom-right corner. */
  predicate Spans(f: Frame, c: Component) {
    f.origin == Point(c.left, c.top) && Add(f.origin, Point(f.width, f.height)) == Point(c.right, c.bottom)
  }

  /** The render switch: paths, circles and rectangles are stroked with the
      component's stroke width, anything else draws nothing. */
  function Render(c: Component): (r: Option<Stroked>)
    ensures r.None? <==> c.shape == Unknown
    ensures r.Some? ==> r.value.lineWidth == c.strokeWidth
    ensures c.shape == Path ==> r.value.figure.PathFigure? && IsPolyline(r.value.figure.path, c.points)
    ensures c.shape == Circle ==> r.value.figure.Ellipse? && Spans(r.value.figure.frame, c)
    ensures c.shape == Rectangle ==> r.value.figure.Rect? && Spans(r.value.figure.frame, c)
  {
    match c.shape
    case Path => Some(Stroked(PathFigure(Polyline(c.points)), c.strokeWidth))
    case Circle => Some(Stroked(Ellipse(FrameOf(c.left, c.top, c.right, c.bottom)), c.strokeWidth))
    case Rectangle => Some(Stroked(Rect(FrameOf(c.left, c.top, c.right, c.bottom)), c.strokeWidth))
    case Unknown => None
  }
}

=== FILE: react_board.dfy ===
/** The React drawing board: the tool-dependent shape a drag builds, the
    normalisation applied on mouse-up before the shape is inserted, and the
    move tool's offset. */
module ReactBoard {
  import opened Common
  import opened Geometry
  import opened ReactColors

  /** The tool selector's options. */
  datatype Tool = CircleTool | RectangleTool | PathTool | LineTool | MoveTool

  /** The option values of the tool selector. */
  function ToolName(t: Tool): string {
    match t
    case CircleTool => "circle"
    case RectangleTool => "rectangle"
    case PathTool => "path"
    case LineTool => "line"
    case MoveTool => "move"
  }

  /** A shape under construction, as the document handed to insertOne; `points`
      is absent for circles and rectangles. */
  datatype Draft = Draft(
    left: real, top: real, right: real, bottom: real, z: real,
    strokeColor: JsNumber, strokeWidth: real, points: Option<seq<Point>>, shape: string)

  function Min(a: real, b: real): real { if a <= b then a else b }
  function Max(a: real, b: real): real { if a <= b then b else a }

  /** `Math.min(...xs)` over a non-empty list. */
  function MinOf(xs: seq<real>): (m: real)
    requires |xs| >= 1
    ensures m in xs && forall i :: 0 <= i < |xs| ==> m <= xs[i]
  {
    if |xs| == 1 then xs[0] else Min(xs[0], MinOf(xs[1..]))
  }

  /** `Math.max(...xs)` over a non-empty list. */
  function MaxOf(xs: seq<real>): (m: real)
    requires |xs| >= 1
    ensures m in xs && forall i :: 0 <= i < |xs| ==> xs[i] <= m
  {
    if |xs| == 1 then xs[0] else Max(xs[0], MaxOf(xs[1..]))
  }

  function Xs(ps: seq<Point>): (xs: seq<real>)
    ensures |xs| == |ps| && forall i :: 0 <= i < |ps| ==> xs[i] == ps[i].x
  {
    seq(|ps|, i requires 0 <= i < |ps| => ps[i].x)
  }

  function Ys(ps: seq<Point>): (ys: seq<real>)
    ensures |ys| == |ps| && forall i :: 0 <= i < |ps| ==> ys[i] == ps[i].y
  {
    seq(|ps|, i requires 0 <= i < |ps| => ps[i].y)
  }

  /** Every point moved by minus the offset. */
  function Shifted(ps: seq<Point>, offset: Point): (qs: seq<Point>)
    ensures |qs| == |ps| && forall i :: 0 <= i < |ps| ==> qs[i] == Sub(ps[i], offset)
  {
    seq(|ps|, i requires 0 <= i < |ps| => Sub(ps[i], offset))
  }

  /** A path draft carries at least one point. */
  predicate WellShaped(d: Draft) {
    d.shape == "path" ==> d.points.Some? && |d.points.value| >= 1
  }

  /** The shape `draw` builds for a drag from `start` to `end` with the given
      tool; the path tool extends the points drawn so far; the move tool builds none. */
  function DraftFor(tool: Tool, start: Point, end: Point, drawn: seq<Point>, color: Option<string>): (d: Option<Draft>)
    ensures d.None? <==> tool == MoveTool
    ensures d.Some? ==> WellShaped(d.value)
  {
    match tool
    case MoveTool => None
    case PathTool =>
      Some(Draft(start.x, start.y, end.x, end.y, 0.0, Hex2Rgb(color), 1.0, Some(drawn + [end]), "path"))
    case LineTool =>
      Some(Draft(Min(start.x, end.x), Min(start.y, end.y), Max(start.x, end.x), Max(start.y, end.y), 0.0,
                 Hex2Rgb(color), 1.0, Some([start, end]), "path"))
    case _ =>
      Some(Draft(start.x, start.y, end.x, end.y, 0.0, Hex2Rgb(color), 1.0, None, ToolName(tool)))
  }

  /** The circle and rectangle tools keep the drag's start as left/top and its
      end as right/bottom, unordered, with no points and the tool's name as the
      shape; the line tool spans its two ends with min/max and records exactly
      `[start, end]`; the path tool appends the new point after the earlier ones. */
  lemma DraftShapes(start: Point, end: Point, drawn: seq<Point>, color: Option<string>)
    ensures forall tool :: tool == CircleTool || tool == RectangleTool ==>
      var d := DraftFor(tool, start, end, drawn, color).value;
      && d.left == start.x && d.top == start.y && d.right == end.x && d.bottom == end.y
      && d.points == None && d.shape == ToolName(tool)
    ensures var d := DraftFor(LineTool, start, end, drawn, color).value;
      && d.left <= d.right && d.top <= d.bottom
      && {d.left, d.right} == {start.x, end.x} && {d.top, d.bottom} == {start.y, end.y}
      && d.points == Some([start, end]) && d.shape == "path"
    ensures var d := DraftFor(PathTool, start, end, drawn, color).value;
      && d.points == Some(drawn + [end]) && d.shape == "path"
      && d.points.value[..|drawn|] == drawn && d.points.value[|drawn|] == end
  {
    var d := DraftFor(PathTool, start, end, drawn, color).value;
    assert d.points.value[..|drawn|] == drawn;
  }

  /** finishDrawing's normalisation against the board offset: min/max of the
      corners moved by minus the offset, and for a path the moved points and
      their bounding box. */
  function Normalised(d: Draft, offset: Point): (n: Draft)
    requires WellShaped(d)
    ensures WellShaped(n)
  {
    var boxed := d.(left := Min(d.left, d.right) - offset.x, right := Max(d.left, d.right) - offset.x,
                    top := Min(d.top, d.bottom) - offset.y, bottom := Max(d.top, d.bottom) - offset.y);
    if d.shape == "path" then
      var ps := Shifted(d.points.value, offset);
      boxed.(points := Some(ps), left := MinOf(Xs(ps)), right := MaxOf(Xs(ps)),
             top := MinOf(Ys(ps)), bottom := MaxOf(Ys(ps)))
    else boxed
  }

  /** The stored extent is ordered. Apart from paths it is the drag's corners
      moved by minus the offset, each pair in order; a path's moved points all
      lie in it, and each of its edges touches one of them. */
  lemma {:induction false} NormalisedIsOrdered(d: Draft, offset: Point)
    requires WellShaped(d)
    ensures var n := Normalised(d, offset);
      n.left <= n.right && n.top <= n.bottom
    ensures d.shape != "path" ==> var n := Normalised(d, offset);
      && {n.left, n.right} == {d.left - offset.x, d.right - offset.x}
      && {n.top, n.bottom} == {d.top - offset.y, d.bottom - offset.y}
      && n.points == d.points
    ensures d.shape == "path" ==> var n := Normalised(d, offset);
      && n.points == Some(Shifted(d.points.value, offset))
      && (forall p :: p in n.points.value ==> n.left <= p.x <= n.right && n.top <= p.y <= n.bottom)
      && (exists p :: p in n.points.value && p.x == n.left)
      && (exists p :: p in n.points.value && p.x == n.right)
      && (exists p :: p in n.points.value && p.y == n.top)
      && (exists p :: p in n.points.value && p.y == n.bottom)
  {
    var n := Normalised(d, offset);
    if d.shape == "path" {
      var ps := n.points.value;
      var xs, ys := Xs(ps), Ys(ps);
      forall p | p in ps
        ensures n.left <= p.x <= n.right && n.top <= p.y <= n.bottom
      {
        var i :| 0 <= i < |ps| && ps[i] == p;
        assert xs[i] == p.x && ys[i] == p.y;
      }
      Attained(ps, xs, n.left, true);
      Attained(ps, xs, n.right, true);
      Attained(ps, ys, n.top, false);
      Attained(ps, ys, n.bottom, false);
    }
  }

  /** A value of the x (or y) list is the x (or y) of some point. */
  lemma Attained(ps: seq<Point>, vs: seq<real>, v: real, horizontal: bool)
    requires v in vs
    requires horizontal ==> vs == Xs(ps)
    requires !horizontal ==> vs == Ys(ps)
    ensures horizontal ==> exists p :: p in ps && p.x == v
    ensures !horizontal ==> exists p :: p in ps && p.y == v
  {
    var i :| 0 <= i < |vs| && vs[i] == v;
    assert ps[i] in ps;
  }

  class Board {
    var tool: Tool
    var color: Option<string>
    var newShape: Option<Draft>
    /** The path points drawn so far; undefined reads as the empty list. */
    var points: seq<Point>
    var startPoint: Option<Point>
    var isDrawing: bool
    var offset: Point
    /** The documents handed to insertOne, in order. */
    var inserted: seq<Draft>

    predicate Valid()
      reads this
    {
      newShape.Some? ==> WellShaped(newShape.value)
    }

    /** The initial state: the circle tool, no colour, nothing drawn, offset zero. */
    constructor ()
      ensures tool == CircleTool && color == None && newShape == None && points == []
      ensures startPoint == None && !isDrawing && offset == Origin && inserted == []
      ensures Valid()
    {
      tool, color, newShape, points := CircleTool, None, None, [];
      startPoint, isDrawing, offset, inserted := None, false, Origin, [];
    }

    method SelectTool(t: Tool)
      modifies this`tool
      ensures tool == t
    {
      tool := t;
    }

    method SetColor(hex: string)
      modifies this`color
      ensures color == Some(hex)
    {
      color := Some(hex);
    }

    /** startDrawing: begins a drag at the canvas-relative point `p`. */
    method StartDrawing(p: Point)
      modifies this`isDrawing, this`startPoint
      ensures isDrawing && startPoint == Some(p)
    {
      isDrawing := true;
      startPoint := Some(p);
    }

    /** draw: while a drag is in progress, replaces the shape under construction
        by the tool's shape from the start point to `end`; the path tool also
        records the extended point list. */
    method Draw(end: Point)
      requires Valid()
      modifies this`newShape, this`points
      ensures Valid()
      ensures !isDrawing || startPoint.None? ==> newShape == old(newShape) && points == old(points)
      ensures isDrawing && startPoint.Some? ==>
        var d := DraftFor(tool, startPoint.value, end, old(points), color);
        && newShape == (if d.Some? then d else old(newShape))
        && points == (if tool == PathTool then old(points) + [end] else old(points))
    {
      if !isDrawing || startPoint.None? {
        return;
      }
      var d := DraftFor(tool, startPoint.value, end, points, color);
      if tool == PathTool {
        points := points + [end];
      }
      if d.Some? {
        newShape := d;
      }
    }

    /** finishDrawing: the move tool adds the drag to the offset; then, if a
        shape is under construction and a drag is in progress, the drag ends and
        the shape, normalised against the offset as it was before this event,
        is inserted. The normalised document stays the shape under construction. */
    method FinishDrawing(end: Point)
      requires Valid()
      modifies this`offset, this`isDrawing, this`startPoint, this`points, this`newShape, this`inserted
      ensures Valid()
      ensures old(startPoint).None? ==>
        offset == old(offset) && isDrawing == old(isDrawing) && startPoint == old(startPoint)
        && points == old(points) && newShape == old(newShape) && inserted == old(inserted)
      ensures old(startPoint).Some? ==>
        offset == (if tool == MoveTool then Add(old(offset), Sub(end, old(startPoint).value)) else old(offset))
        && !isDrawing
      ensures old(startPoint).Some? && (old(newShape).None? || !old(isDrawing)) ==>
        startPoint == old(startPoint) && points == old(points)
        && newShape == old(newShape) && inserted == old(inserted)
      ensures old(startPoint).Some? && old(newShape).Some? && old(isDrawing) ==>
        var n := Normalised(old(newShape).value, old(offset));
        && startPoint == None && points == [] && newShape == Some(n)
        && inserted == old(inserted) + [n]
    {
      if startPoint.None? {
        return;
      }
      var before := offset;
      if tool == MoveTool {
        offset := Add(offset, Sub(end, startPoint.value));
      }
      if newShape.None? || !isDrawing {
        isDrawing := false;
        return;
      }
      isDrawing := false;
      startPoint := None;
      points := [];
      var n := Normalised(newShape.value, before);
      newShape := Some(n);
      inserted := inserted + [n];
    }
  }
}

=== FILE: react_colors.dfy ===
/** The React client's colour codec: a colour int to the hex text the canvas
    stroke style is built from (rgbToHex), and a picker's `#rrggbb` text to
    the int the record stores (hex2Rgb). */
module ReactColors {
  import opened Common

  /** A JavaScript number as these functions produce it: an integer or NaN. */
  datatype JsNumber = NaN | Num(n: int)

  /** `a * k` with NaN propagation. */
  function Scale(a: JsNumber, k: int): JsNumber {
    match a
    case NaN => NaN
    case Num(x) => Num(x * k)
  }

  /** `a + b` with NaN propagation. */
  function Plus(a: JsNumber, b: JsNumber): JsNumber {
    if a.NaN? || b.NaN? then NaN else Num(a.n + b.n)
  }

  predicate IsHexDigit(c: char) {
    '0' <= c <= '9' || 'a' <= c <= 'f' || 'A' <= c <= 'F'
  }

  predicate AllHexDigits(s: string) {
    forall i :: 0 <= i < |s| ==> IsHexDigit(s[i])
  }

  function DigitValue(c: char): (v: nat)
    requires IsHexDigit(c)
    ensures v < 16
  {
    if '0' <= c <= '9' then c as int - '0' as int
    else if 'a' <= c <= 'f' then c as int - 'a' as int + 10
    else c as int - 'A' as int + 10
  }

  /** The lower-case digit `toString(16)` writes for a value below 16. */
  function DigitChar(v: nat): (c: char)
    requires v < 16
    ensures IsHexDigit(c) && DigitValue(c) == v
  {
    if v < 10 then ('0' as int + v) as char else ('a' as int + v - 10) as char
  }

  function Pow16(k: nat): (p: nat)
    ensures p >= 1
  {
    if k == 0 then 1 else 16 * Pow16(k - 1)
  }

  /** The value of a run of hex digits, most significant first. */
  function HexValue(s: string): (v: nat)
    requires AllHexDigits(s)
    ensures v < Pow16(|s|)
  {
    if s == [] then 0 else HexValue(s[..|s| - 1]) * 16 + DigitValue(s[|s| - 1])
  }

  /** A concatenation of digit runs is a digit run. */
  lemma HexDigitsAppend(a: string, b: string)
    requires AllHexDigits(a) && AllHexDigits(b)
    ensures AllHexDigits(a + b)
  {
    forall i | 0 <= i < |a + b| ensures IsHexDigit((a + b)[i]) {
      if i < |a| { assert (a + b)[i] == a[i]; } else { assert (a + b)[i] == b[i - |a|]; }
    }
  }

  /** The digits of a concatenation: the first part's value shifted past the second's digits. */
  lemma {:induction false} HexValueAppend(a: string, b: string)
    requires AllHexDigits(a) && AllHexDigits(b)
    ensures AllHexDigits(a + b)
    ensures HexValue(a + b) == HexValue(a) * Pow16(|b|) + HexValue(b)
  {
    HexDigitsAppend(a, b);
    if b == [] {
      assert a + b == a;
    } else {
      var b' := b[..|b| - 1];
      var last := b[|b| - 1];
      HexValueAppend(a, b');
      var ab := a + b';
      assert (a + b)[..|a + b| - 1] == ab;
      assert (a + b)[|a + b| - 1] == last;
      ShiftStep(HexValue(a + b), HexValue(ab), HexValue(a), Pow16(|b'|), Pow16(|b|),
                HexValue(b'), HexValue(b), DigitValue(last));
    }
  }

  /** One more digit: `v = (x * p + y) * 16 + d` is `x` shifted by `p * 16`
      plus the value of the longer run `y * 16 + d`. */
  lemma ShiftStep(v: int, u: int, x: int, p: int, q: int, y: int, w: int, d: int)
    requires u == x * p + y && v == u * 16 + d
    requires q == p * 16 && w == y * 16 + d
    ensures v == x * q + w
  {
  }

  /** `Number(n).toString(16)` for a non-negative integer: lower-case digits, no
      leading zeros, "0" for zero. */
  function ToHexString(n: nat): (s: string)
    ensures 1 <= |s| && AllHexDigits(s)
    ensures HexValue(s) == n
    ensures |s| > 1 ==> s[0] != '0'
  {
    if n < 16 then [DigitChar(n)]
    else
      var hi := ToHexString(n / 16);
      var s := hi + [DigitChar(n % 16)];
      assert s[..|s| - 1] == hi;
      s
  }

  /** The number of digits `toString(16)` writes is the least `k` with `n < 16^k`. */
  lemma {:induction false} ToHexStringLength(n: nat, k: nat)
    requires k >= 1
    ensures |ToHexString(n)| <= k <==> n < Pow16(k)
  {
    if n >= 16 {
      if k == 1 {
        assert |ToHexString(n)| == |ToHexString(n / 16)| + 1;
      } else {
        ToHexStringLength(n / 16, k - 1);
        assert |ToHexString(n)| == |ToHexString(n / 16)| + 1;
      }
    }
  }

  /** rgbToHex: the hex form, with a '0' put in front of a single digit. */
  function RgbToHex(rgb: nat): (s: string)
    ensures |s| >= 2 && AllHexDigits(s) && HexValue(s) == rgb
    ensures |ToHexString(rgb)| >= 2 ==> s == ToHexString(rgb)
    ensures |ToHexString(rgb)| < 2 ==> s == "0" + ToHexString(rgb)
  {
    var hex := ToHexString(rgb);
    if |hex| < 2 then
      HexValueAppend("0", hex);
      "0" + hex
    else hex
  }

  /** String.prototype.slice(start, end) for 0 <= start <= end: both ends are
      clamped to the length. */
  function Slice(s: string, start: nat, end: nat): (r: string)
    requires start <= end
    ensures |r| == if end <= |s| then end - start else if start <= |s| then |s| - start else 0
  {
    var e := if end <= |s| then end else |s|;
    var b := if start <= e then start else e;
    s[b..e]
  }

  /** How many hex digits `s` starts with. */
  function HexPrefixLength(s: string): (n: nat)
    ensures n <= |s| && AllHexDigits(s[..n])
    ensures n < |s| ==> !IsHexDigit(s[n])
  {
    if s == [] || !IsHexDigit(s[0]) then 0
    else
      var k := HexPrefixLength(s[1..]);
      assert s[..k + 1] == [s[0]] + s[1..][..k];
      k + 1
  }

  /** `parseInt(s, 16)` without leading white space: an optional sign, an
      optional "0x" or "0X", then the longest run of hex digits; NaN when the
      run is empty. */
  function ParseInt16(s: string): JsNumber {
    var negative := |s| > 0 && s[0] == '-';
    var unsigned := if |s| > 0 && (s[0] == '-' || s[0] == '+') then s[1..] else s;
    var digits := if |unsigned| >= 2 && unsigned[0] == '0' && (unsigned[1] == 'x' || unsigned[1] == 'X')
                  then unsigned[2..] else unsigned;
    var n := HexPrefixLength(digits);
    if n == 0 then NaN
    else
      var v: int := HexValue(digits[..n]);
      Num(if negative then -v else v)
  }

  /** Hex digits alone parse to their value. */
  lemma {:induction false} ParseHexDigits(s: string)
    requires 1 <= |s| && AllHexDigits(s)
    ensures ParseInt16(s) == Num(HexValue(s))
  {
    assert HexPrefixLength(s) == |s| by {
      HexDigitsPrefix(s);
    }
    assert s[..|s|] == s;
  }

  lemma {:induction false} HexDigitsPrefix(s: string)
    requires AllHexDigits(s)
    ensures HexPrefixLength(s) == |s|
  {
    if s != [] {
      HexDigitsPrefix(s[1..]);
    }
  }

  /** Parsing stops at the first character that is not a hex digit: whatever
      follows a run of digits is ignored. */
  lemma {:induction false} ParseStopsAtNonDigit(s: string, t: string)
    requires 1 <= |s| && AllHexDigits(s)
    requires t != [] ==> !IsHexDigit(t[0]) && t[0] != 'x' && t[0] != 'X'
    ensures ParseInt16(s + t) == Num(HexValue(s))
  {
    var u := s + t;
    assert u[0] == s[0];
    assert |u| >= 2 ==> u[1] != 'x' && u[1] != 'X' by {
      if |s| >= 2 {
        assert u[1] == s[1] && IsHexDigit(s[1]);
      } else if |u| >= 2 {
        assert u[1] == t[0];
      }
    }
    HexPrefixOfAppend(s, t);
    assert u[..|s|] == s;
  }

  lemma {:induction false} HexPrefixOfAppend(s: string, t: string)
    requires AllHexDigits(s)
    requires t != [] ==> !IsHexDigit(t[0])
    ensures HexPrefixLength(s + t) == |s|
  {
    if s != [] {
      assert (s + t)[1..] == s[1..] + t;
      HexPrefixOfAppend(s[1..], t);
    }
  }

  /** The empty string parses to NaN. */
  lemma EmptyIsNaN()
    ensures ParseInt16("") == NaN
  {
  }

  /** hex2Rgb: 0 for undefined or the empty string, otherwise the three
      two-character slices after the first character, parsed as hex. */
  function Hex2Rgb(hex: Option<string>): (r: JsNumber)
    ensures hex == None || hex == Some("") ==> r == Num(0)
  {
    match hex
    case None => Num(0)
    case Some(h) =>
      if h == "" then Num(0)
      else
        var r := ParseInt16(Slice(h, 1, 3));
        var g := ParseInt16(Slice(h, 3, 5));
        var b := ParseInt16(Slice(h, 5, 7));
        Plus(Plus(Scale(r, 65536), Scale(g, 256)), b)
  }

  /** A colour text with six hex digits after its first character. */
  predicate WellFormed(h: string) {
    |h| == 7 && AllHexDigits(h[1..])
  }

  /** For `#rrggbb` (any first character), hex2Rgb is the three channels packed,
      which is the value of the six digits and lies in [0, 0xFFFFFF]. */
  lemma {:induction false} Hex2RgbWellFormed(h: string)
    requires WellFormed(h)
    ensures Hex2Rgb(Some(h)) == Num(HexValue(h[1..3]) * 65536 + HexValue(h[3..5]) * 256 + HexValue(h[5..7]))
    ensures Hex2Rgb(Some(h)) == Num(HexValue(h[1..]))
    ensures 0 <= Hex2Rgb(Some(h)).n <= 0xFF_FFFF
  {
    var s := h[1..];
    assert h[1..3] == s[..2] && h[3..5] == s[2..4] && h[5..7] == s[4..];
    ChannelSlices(h);
    SixDigits(s);
  }

  /** The three slices of a well-formed colour text parse to their digits' values. */
  lemma {:induction false} ChannelSlices(h: string)
    requires WellFormed(h)
    ensures AllHexDigits(h[1..3]) && AllHexDigits(h[3..5]) && AllHexDigits(h[5..7])
    ensures Hex2Rgb(Some(h)) == Num(HexValue(h[1..3]) * 65536 + HexValue(h[3..5]) * 256 + HexValue(h[5..7]))
  {
    var s := h[1..];
    assert h[1..3] == s[..2] && h[3..5] == s[2..4] && h[5..7] == s[4..];
    assert Slice(h, 1, 3) == h[1..3] && Slice(h, 3, 5) == h[3..5] && Slice(h, 5, 7) == h[5..7];
    ParseHexDigits(h[1..3]);
    ParseHexDigits(h[3..5]);
    ParseHexDigits(h[5..7]);
  }

  /** Six digits are three two-digit channels. */
  lemma {:induction false} SixDigits(s: string)
    requires |s| == 6 && AllHexDigits(s)
    ensures HexValue(s) == HexValue(s[..2]) * 65536 + HexValue(s[2..4]) * 256 + HexValue(s[4..])
    ensures HexValue(s) <= 0xFF_FFFF
  {
    var hi, mid, lo := s[..2], s[2..4], s[4..];
    assert AllHexDigits(hi) && AllHexDigits(mid) && AllHexDigits(lo);
    Pow16Values();
    HexValueAppend(hi, mid);
    assert hi + mid == s[..4];
    HexValueAppend(s[..4], lo);
    assert s[..4] + lo == s;
    var h, m, l := HexValue(hi), HexValue(mid), HexValue(lo);
    assert HexValue(s[..4]) == h * 256 + m;
    assert HexValue(s) == HexValue(s[..4]) * 256 + l;
  }

  /** The powers of 16 a six-digit colour needs. */
  lemma Pow16Values()
    ensures Pow16(2) == 0x100 && Pow16(4) == 0x1_0000
    ensures Pow16(5) == 0x10_0000 && Pow16(6) == 0x100_0000
  {
    assert Pow16(1) == 0x10;
    assert Pow16(2) == 0x100;
    assert Pow16(3) == 0x1000;
    assert Pow16(4) == 0x1_0000;
    assert Pow16(5) == 0x10_0000;
  }

  /** A colour with six hex digits survives the round trip through the stroke
      style text and back. */
  lemma {:induction false} HexRoundTrip(n: nat)
    requires 0x10_0000 <= n <= 0xFF_FFFF
    ensures Hex2Rgb(Some("#" + RgbToHex(n))) == Num(n)
  {
    ToHexStringLength(n, 6);
    ToHexStringLength(n, 5);
    Pow16Values();
    var h := "#" + RgbToHex(n);
    assert h[1..] == RgbToHex(n);
    Hex2RgbWellFormed(h);
  }

  /** Blue, 0xFF, has a two-digit hex form, so the text "#ff" has no green or
      blue slice and reads back as NaN. */
  lemma BlueDoesNotRoundTrip()
    ensures RgbToHex(0xFF) == "ff"
    ensures Hex2Rgb(Some("#" + RgbToHex(0xFF))) == NaN
  {
    assert ToHexString(0xFF) == "ff";
    assert Slice("#ff", 3, 5) == "";
    EmptyIsNaN();
  }

  /** `'0'` repeated `k` times. */
  function Zeros(k: nat): (z: string)
    ensures |z| == k && AllHexDigits(z) && HexValue(z) == 0
  {
    if k == 0 then []
    else
      var z := Zeros(k - 1) + "0";
      assert z[..|z| - 1] == Zeros(k - 1);
      z
  }

  /** rgbToHex padded to the six digits a `#rrggbb` colour needs. */
  function RgbToHex6(rgb: nat): (s: string)
    requires rgb <= 0xFF_FFFF
    ensures |s| == 6 && AllHexDigits(s) && HexValue(s) == rgb
  {
    var hex := ToHexString(rgb);
    ToHexStringLength(rgb, 6);
    Pow16Values();
    HexValueAppend(Zeros(6 - |hex|), hex);
    Zeros(6 - |hex|) + hex
  }

  /** Every colour in [0, 0xFFFFFF] survives the round trip with the padded form. */
  lemma {:induction false} Hex6RoundTrip(n: nat)
    requires n <= 0xFF_FFFF
    ensures Hex2Rgb(Some("#" + RgbToHex6(n))) == Num(n)
  {
    var h := "#" + RgbToHex6(n);
    assert h[1..] == RgbToHex6(n);
    Hex2RgbWellFormed(h);
  }
}

=== FILE: rgb_channels.dfy ===
/** Colour channels packed into an integer, as both the Kotlin and the Swift
    clients store a colour: red in bits 16-23, green in 8-15, blue in 0-7. */
module RgbChannels {

  /** One 8-bit colour channel. */
  type Byte = b: int | 0 <= b < 256

  /** Bits 16-23, 8-15 and 0-7 of a two's complement integer (`(x shr 16) and
      0xFF`, `(x & 0xFF0000) >> 16`, ...): an arithmetic shift right is a floor
      division, a mask of the low bits a remainder. */
  function RedByte(x: int): Byte { (x / 0x1_0000) % 0x100 }
  function GreenByte(x: int): Byte { (x / 0x100) % 0x100 }
  function BlueByte(x: int): Byte { x % 0x100 }

  /** The three low bytes of an integer packed back together are its low 24 bits. */
  lemma {:induction false} LowBytes(x: int)
    ensures (RedByte(x) * 0x100 + GreenByte(x)) * 0x100 + BlueByte(x) == x % 0x100_0000
  {
    var b, y := x % 0x100, x / 0x100;
    var g, z := y % 0x100, y / 0x100;
    var r, w := z % 0x100, z / 0x100;
    assert x == 0x100 * y + b;
    assert y == 0x100 * z + g;
    assert z == 0x100 * w + r;
    assert x / 0x1_0000 == z by {
      assert x == 0x1_0000 * z + (0x100 * g + b);
    }
    var low := (r * 0x100 + g) * 0x100 + b;
    assert x == 0x100_0000 * w + low;
    assert 0 <= low < 0x100_0000;
  }

  /** Three bytes packed big-end first determine the bytes. */
  lemma PackedChannels(r: Byte, g: Byte, b: Byte, r': Byte, g': Byte, b': Byte)
    requires (r * 0x100 + g) * 0x100 + b == (r' * 0x100 + g') * 0x100 + b'
    ensures r == r' && g == g' && b == b'
  {
    var x := (r * 0x100 + g) * 0x100 + b;
    assert x % 0x100 == b && x % 0x100 == b';
    var y := r * 0x100 + g;
    assert x / 0x100 == y;
    assert x / 0x100 == r' * 0x100 + g';
    assert y % 0x100 == g && y % 0x100 == g';
  }
}

=== FILE: skia_colors.dfy ===
/** SkiaSharp's SKColor: a 32-bit unsigned ARGB value, alpha in the top byte. */
module SkiaColors {

  type SKColor = c: int | 0 <= c < 0x1_0000_0000

  /** SKColors.Transparent: white with alpha 0. */
  const Transparent: SKColor := 0x00FF_FFFF

  /** SKColors.Gray. */
  const Gray: SKColor := 0xFF80_8080

  /** SKColor.Empty, the default value of an SKColor field. */
  const Empty: SKColor := 0

  /** The top byte. */
  function Alpha(c: SKColor): (a: int)
    ensures 0 <= a < 256
  {
    c / 0x100_0000
  }

  /** The red, green and blue bytes of a colour. */
  function Rgb(c: SKColor): (m: int)
    ensures 0 <= m < 0x100_0000
  {
    c % 0x100_0000
  }

  /** SKColor.WithAlpha: the same red, green and blue with alpha `a`. */
  function WithAlpha(c: SKColor, a: int): (r: SKColor)
    requires 0 <= a < 256
    ensures Alpha(r) == a && Rgb(r) == Rgb(c)
  {
    a * 0x100_0000 + Rgb(c)
  }

  /** A colour is fixed by its alpha and its red, green and blue bytes. */
  lemma ColorFromParts(c: SKColor, d: SKColor)
    requires Alpha(c) == Alpha(d) && Rgb(c) == Rgb(d)
    ensures c == d
  {
  }

  /** `(int)(uint)c`: the C# int with the same 32 bits. */
  function AsInt32(c: SKColor): (i: int)
    ensures -0x8000_0000 <= i < 0x8000_0000
    ensures i % 0x1_0000_0000 == c
  {
    if c < 0x8000_0000 then c else c - 0x1_0000_0000
  }

  /** `(uint)v.AsInt32()`: the colour whose 32 bits are the low 32 bits of the
      stored 64-bit integer. */
  function FromInt(i: int): SKColor {
    i % 0x1_0000_0000
  }

  /** Reinterpreting a colour as an int and back is exact. */
  lemma Int32RoundTrip(c: SKColor)
    ensures FromInt(AsInt32(c)) == c
  {
  }
}

=== FILE: swift_render_shapes.dfy ===
/** The Swift test app's renderer: the stored colour integer to an opaque
    colour, and the choice between filling a shape and stroking it. */
module SwiftRenderShapes {
  import opened Common
  import opened Geometry
  import opened RgbChannels

  /** A Swift Int: 64-bit two's complement. */
  type SwiftInt = i: int | -0x8000_0000_0000_0000 <= i < 0x8000_0000_0000_0000

  /** The persisted shape enum. */
  datatype ShapeType = Circle | Rectangle | Path | Unknown

  /** A mixed-type stored value: an integer, nothing, or a value of another type. */
  datatype AnyRealmValue = IntValue(i: SwiftInt) | NoValue | OtherValue

  /** `.intValue`: the integer, or nil for any other kind of value. */
  function IntOf(v: AnyRealmValue): Option<SwiftInt> {
    match v
    case IntValue(i) => Some(i)
    case _ => None
  }

  /** A colour: three 8-bit channels (each shown as its value over 255) and an alpha. */
  datatype RgbaColor = RgbaColor(red: Byte, green: Byte, blue: Byte, alpha: real)

  /** RgbColor.toColor: the bytes under the masks 0xFF0000, 0xFF00 and 0xFF,
      always fully opaque. */
  function ToColor(argb: SwiftInt): (c: RgbaColor)
    ensures c.alpha == 1.0
    ensures (c.red * 0x100 + c.green) * 0x100 + c.blue == argb % 0x100_0000
  {
    LowBytes(argb);
    RgbaColor(RedByte(argb), GreenByte(argb), BlueByte(argb), 1.0)
  }

  /** The alpha byte and every higher bit of the input are ignored. */
  lemma {:induction false} ToColorIgnoresHighBits(a: SwiftInt, b: SwiftInt)
    requires a % 0x100_0000 == b % 0x100_0000
    ensures ToColor(a) == ToColor(b)
  {
    var ca, cb := ToColor(a), ToColor(b);
    PackedChannels(ca.red, ca.green, ca.blue, cb.red, cb.green, cb.blue);
  }

  /** A stored component, as the renderer reads it. */
  datatype Component = Component(
    shape: ShapeType, strokeColor: AnyRealmValue, strokeWidth: real, fillColor: AnyRealmValue,
    top: real, right: real, bottom: real, left: real, z: real, points: seq<Point>)

  datatype Figure = Ellipse(frame: Frame) | Rect(frame: Frame) | PathFigure(path: seq<PathElement>)
  datatype Paint = Fill(color: RgbaColor) | Stroke(lineWidth: real, color: RgbaColor)
  datatype Drawing = Drawing(figure: Figure, paint: Paint)

  /** The figure of a known shape: an ellipse or a rectangle in the component's
      frame, or the polyline through its points. */
  function FigureOf(c: Component): Figure
    requires c.shape != Unknown
  {
    match c.shape
    case Circle => Ellipse(FrameOf(c.left, c.top, c.right, c.bottom))
    case Rectangle => Rect(FrameOf(c.left, c.top, c.right, c.bottom))
    case Path => PathFigure(Polyline(c.points))
  }

  /** The render switch: an integer fill colour fills the figure with it;
      otherwise the figure is stroked with the stroke width and the stroke
      colour's integer, 0 when it has none. Unknown draws nothing. */
  function Render(c: Component): (r: Option<Drawing>)
    ensures r.None? <==> c.shape == Unknown
    ensures r.Some? ==> (r.value.paint.Fill? <==> c.fillColor.IntValue?)
    ensures r.Some? && c.fillColor.IntValue? ==> r.value.paint.color == ToColor(c.fillColor.i)
    ensures r.Some? && !c.fillColor.IntValue? ==>
      r.value.paint == Stroke(c.strokeWidth, ToColor(if c.strokeColor.IntValue? then c.strokeColor.i else 0))
  {
    if c.shape == Unknown then None
    else
      var paint := match c.fillColor
        case IntValue(f) => Fill(ToColor(f))
        case _ => Stroke(c.strokeWidth, ToColor(match IntOf(c.strokeColor) case Some(i) => i case None => 0));
      Some(Drawing(FigureOf(c), paint))
  }

  /** Whatever is drawn, fill or stroke, is an opaque colour; a component with
      no integer stroke or fill colour is stroked in black. */
  lemma {:induction false} RenderIsOpaque(c: Component)
    requires c.shape != Unknown
    ensures Render(c).value.paint.color.alpha == 1.0
    ensures !c.fillColor.IntValue? && !c.strokeColor.IntValue? ==>
      Render(c).value.paint == Stroke(c.strokeWidth, RgbaColor(0, 0, 0, 1.0))
  {
    var black := ToColor(0);
    PackedChannels(black.red, black.green, black.blue, 0, 0, 0);
  }
}

=== FILE: xamarin_drawing_page.dfy ===
/** The Xamarin drawing page's pan/zoom state: a committed offset, the offset of
    the pan in progress, and a scale, updated by the gesture handlers. */
module XamarinDrawingPage {
  import opened Geometry

  /** Xamarin.Forms GestureStatus. */
  datatype GestureStatus = Started | Running | Completed | Canceled

  /** SkiaSharp SKTouchAction. */
  datatype TouchAction = Entered | Pressed | Moved | Released | Cancelled | Exited | WheelChanged

  class DrawingPage {
    var scale: real
    var offset: Point
    var panOffset: Point

    constructor ()
      ensures scale == 1.0 && offset == Origin && panOffset == Origin
    {
      scale, offset, panOffset := 1.0, Origin, Origin;
    }

    /** The translation the canvas is painted with. */
    function EffectiveOffset(): Point
      reads this
    {
      Add(offset, panOffset)
    }

    /** PinchGestureRecognizer_PinchUpdated: multiplies the scale by the gesture's scale. */
    method PinchUpdated(gestureScale: real)
      modifies this`scale
      ensures scale == old(scale) * gestureScale
    {
      scale := scale * gestureScale;
    }

    /** TapGestureRecognizer_Tapped: resets zoom and the committed offset; a pan
        in progress keeps its offset. */
    method Tapped()
      modifies this`scale, this`offset
      ensures scale == 1.0 && offset == Origin
      ensures EffectiveOffset() == panOffset
    {
      scale := 1.0;
      offset := Origin;
    }

    /** PanGestureRecognizer_PanUpdated. While running, the pan offset is the
        gesture's total translation so far (it replaces, never accumulates);
        completion folds it into the committed offset, so the painted
        translation does not jump; cancellation drops it. */
    method PanUpdated(status: GestureStatus, totalX: real, totalY: real)
      modifies this`offset, this`panOffset
      ensures status == Running ==> panOffset == Point(totalX, totalY) && offset == old(offset)
      ensures status == Completed ==> offset == Add(old(offset), old(panOffset)) && panOffset == Origin
      ensures status == Completed ==> EffectiveOffset() == old(EffectiveOffset())
      ensures status == Canceled ==> offset == old(offset) && panOffset == Origin
      ensures status == Canceled ==> EffectiveOffset() == offset
      ensures status == Started ==> offset == old(offset) && panOffset == old(panOffset)
    {
      match status {
        case Running =>
          panOffset := Point(totalX, panOffset.y);
          panOffset := Point(panOffset.x, totalY);
        case Completed =>
          offset := Add(offset, panOffset);
          panOffset := Origin;
        case Canceled =>
          panOffset := Origin;
        case Started =>
      }
    }

    /** canvasView_Touch: every touch event is marked handled. */
    method CanvasViewTouch(action: TouchAction) returns (handled: bool)
      ensures handled
    {
      handled := true;
    }
  }
}

=== FILE: xamarin_models.dfy ===
/** The Xamarin client's stored shape record (PinkUnicorn.Models.Component):
    the shape name codec, the colour mapping onto the dynamically typed stored
    value, the width/height projections and the points setter. */
module XamarinModels {
  import opened Common
  import opened Geometry
  import opened SkiaColors

  datatype Shape = Circle | Line | Path | Rectangle | Triangle

  /** `value.ToString().ToLower()`. */
  function ShapeName(s: Shape): (name: string)
    ensures IsLowerCase(name)
  {
    match s
    case Circle => "circle"
    case Line => "line"
    case Path => "path"
    case Rectangle => "rectangle"
    case Triangle => "triangle"
  }

  /** The Shape getter: a case-insensitive match against the enum names, and
      Rectangle when the stored string names none of them. */
  function ParseShape(stored: string): (s: Shape)
    ensures (exists t :: EqualsIgnoreCase(stored, ShapeName(t))) ==> EqualsIgnoreCase(stored, ShapeName(s))
    ensures (forall t :: !EqualsIgnoreCase(stored, ShapeName(t))) ==> s == Rectangle
  {
    var l := Lower(stored);
    LowerOfLowerCase(ShapeName(Circle));
    LowerOfLowerCase(ShapeName(Line));
    LowerOfLowerCase(ShapeName(Path));
    LowerOfLowerCase(ShapeName(Rectangle));
    LowerOfLowerCase(ShapeName(Triangle));
    if l == "circle" then Circle
    else if l == "line" then Line
    else if l == "path" then Path
    else if l == "rectangle" then Rectangle
    else if l == "triangle" then Triangle
    else Rectangle
  }

  /** The stored name of a shape parses back to the same shape, whatever its case. */
  lemma {:induction false} ShapeRoundTrip(s: Shape)
    ensures ParseShape(ShapeName(s)) == s
    ensures ParseShape(Upper(ShapeName(s))) == s
  {
    LowerOfLowerCase(ShapeName(s));
    UpperAgreesIgnoringCase(ShapeName(s));
  }

  /** The dynamically typed stored value (RealmValue) of the colour fields. */
  datatype RealmValue = NullValue | IntValue(i: int) | StringValue(s: string)

  /** The StrokeColor setter: the colour's 32 bits as a C# int. */
  function StoreStrokeColor(c: SKColor): (v: RealmValue)
    ensures v.IntValue? && -0x8000_0000 <= v.i < 0x8000_0000
  {
    IntValue(AsInt32(c))
  }

  /** The StrokeColor getter: an integer is reinterpreted as a colour, a string is
      handed to `parse` (SKColor.Parse); None stands for the cast exception that
      reading a Null value as a string raises. */
  function ReadStrokeColor(v: RealmValue, parse: string -> SKColor): (r: Option<SKColor>)
    ensures r.None? <==> v.NullValue?
  {
    match v
    case IntValue(i) => Some(FromInt(i))
    case StringValue(s) => Some(parse(s))
    case NullValue => None
  }

  /** The FillColor setter: null is stored as Null, a colour as its 32 bits. */
  function StoreFillColor(c: Option<SKColor>): (v: RealmValue)
    ensures v.NullValue? <==> c.None?
  {
    match c
    case None => NullValue
    case Some(color) => IntValue(AsInt32(color))
  }

  /** The FillColor getter: Null reads as null. */
  function ReadFillColor(v: RealmValue, parse: string -> SKColor): (r: Option<SKColor>)
    ensures r.None? <==> v.NullValue?
  {
    match v
    case NullValue => None
    case IntValue(i) => Some(FromInt(i))
    case StringValue(s) => Some(parse(s))
  }

  /** Storing a stroke colour and reading it back gives the same 32-bit colour. */
  lemma StrokeColorRoundTrip(c: SKColor, parse: string -> SKColor)
    ensures ReadStrokeColor(StoreStrokeColor(c), parse) == Some(c)
  {
    Int32RoundTrip(c);
  }

  /** Storing a fill colour, null included, and reading it back gives it unchanged. */
  lemma FillColorRoundTrip(c: Option<SKColor>, parse: string -> SKColor)
    ensures ReadFillColor(StoreFillColor(c), parse) == c
  {
    if c.Some? {
      Int32RoundTrip(c.value);
    }
  }

  /** A shape record with its backing fields. */
  class Component {
    var left: real
    var top: real
    var right: real
    var bottom: real
    var z: real
    var strokeWidth: real
    var points: seq<Point>
    var shapeText: string
    var strokeColorValue: RealmValue
    var fillColorValue: RealmValue

    /** A fresh record: coordinates 0, no points, no shape text, both colours Null. */
    constructor ()
      ensures left == 0.0 && top == 0.0 && right == 0.0 && bottom == 0.0 && z == 0.0
      ensures strokeWidth == 0.0 && points == [] && shapeText == []
      ensures strokeColorValue == NullValue && fillColorValue == NullValue
    {
      left, top, right, bottom, z, strokeWidth := 0.0, 0.0, 0.0, 0.0, 0.0, 0.0;
      points := [];
      shapeText := [];
      strokeColorValue := NullValue;
      fillColorValue := NullValue;
    }

    function Width(): (w: real)
      reads this
      ensures left + w == right
    {
      right - left
    }

    function Height(): (h: real)
      reads this
      ensures top + h == bottom
    {
      bottom - top
    }

    function GetShape(): Shape
      reads this
    {
      ParseShape(shapeText)
    }

    method SetShape(s: Shape)
      modifies this`shapeText
      ensures shapeText == ShapeName(s) && GetShape() == s
    {
      shapeText := ShapeName(s);
      ShapeRoundTrip(s);
    }

    /** The Points setter: clears the stored list and appends a copy of every
        given point, in order. */
    method SetPoints(value: seq<Point>)
      modifies this`points
      ensures points == value
    {
      points := [];
      for i := 0 to |value|
        invariant points == value[..i]
      {
        var converted := Point(value[i].x, value[i].y);
        points := points + [converted];
      }
    }

    method SetStrokeColor(c: SKColor)
      modifies this`strokeColorValue
      ensures strokeColorValue == StoreStrokeColor(c)
      ensures forall parse: string -> SKColor :: ReadStrokeColor(strokeColorValue, parse) == Some(c)
    {
      strokeColorValue := StoreStrokeColor(c);
      Int32RoundTrip(c);
    }

    method SetFillColor(c: Option<SKColor>)
      modifies this`fillColorValue
      ensures fillColorValue == StoreFillColor(c)
      ensures forall parse: string -> SKColor :: ReadFillColor(fillColorValue, parse) == c
    {
      fillColorValue := StoreFillColor(c);
      if c.Some? {
        Int32RoundTrip(c.value);
      }
    }
  }
}

=== FILE: xamarin_shape_icon.dfy ===
/** The Xamarin shape icon control: bindable shape and pen properties, the
    nullable fill colour kept as Transparent in the property store, the touch
    filter, and the fill-then-stroke paint pass. */
module XamarinShapeIcon {
  import opened Common
  import opened SkiaColors
  import opened Geometry
  import XamarinModels
  import XamarinDrawingPage

  type Shape = XamarinModels.Shape
  type TouchAction = XamarinDrawingPage.TouchAction

  /** The fill colour as the getter reads it from the store: Transparent means null. */
  function FillFromStore(stored: SKColor): (r: Option<SKColor>)
    ensures r.None? <==> stored == Transparent
    ensures r != Some(Transparent)
  {
    if stored == Transparent then None else Some(stored)
  }

  /** The fill colour as the setter writes it to the store: null becomes Transparent. */
  function StoreFromFill(fill: Option<SKColor>): SKColor {
    match fill
    case None => Transparent
    case Some(c) => c
  }

  /** Setting the fill colour and reading it back returns it, except that
      Transparent comes back as null. */
  lemma FillColorReadBack(fill: Option<SKColor>)
    ensures FillFromStore(StoreFromFill(fill)) == if fill == Some(Transparent) then None else fill
  {
  }

  /** A colour as it is painted: a colour other than Transparent whose alpha is 0
      is made opaque; red, green and blue never change. */
  function Opaque(c: SKColor): (r: SKColor)
    ensures Rgb(r) == Rgb(c)
    ensures Alpha(r) == if c != Transparent && Alpha(c) == 0 then 255 else Alpha(c)
  {
    if c != Transparent && Alpha(c) == 0 then WithAlpha(c, 255) else c
  }

  /** An SKRect by its four edges. */
  datatype Rect = Rect(left: real, top: real, right: real, bottom: real)

  /** SKRect.Inflate(d, d): every edge moves outwards by `d` (inwards when `d` is negative). */
  function Inflate(r: Rect, d: real): (q: Rect)
    ensures q.right - q.left == r.right - r.left + 2.0 * d
    ensures q.bottom - q.top == r.bottom - r.top + 2.0 * d
    ensures (q.left + q.right) == (r.left + r.right) && (q.top + q.bottom) == (r.top + r.bottom)
  {
    Rect(r.left - d, r.top - d, r.right + d, r.bottom + d)
  }

  /** The paint pass's stroke width: the property read as a share of 300 of the canvas width. */
  function PenWidth(strokeWidth: real, width: real): real {
    strokeWidth / 300.0 * width
  }

  /** The box the figures are drawn in: the canvas shrunk by half the pen width on every side. */
  function FigureBox(width: real, height: real, pen: real): (b: Rect)
    ensures b.right - b.left == width - pen && b.bottom - b.top == height - pen
  {
    Inflate(Rect(0.0, 0.0, width, height), -pen / 2.0)
  }

  /** A stroke is centred on the box's outline, so its outer edge is exactly the
      canvas: the outline drawn with the pen never leaves the surface. */
  lemma StrokeFillsCanvas(width: real, height: real, pen: real)
    ensures Inflate(FigureBox(width, height, pen), pen / 2.0) == Rect(0.0, 0.0, width, height)
  {
  }

  /** A paint: its colour, its stroke width, and whether it strokes (otherwise it fills). */
  datatype Paint = Paint(color: SKColor, strokeWidth: real, isStroke: bool)

  /** A draw call of the paint pass. */
  datatype DrawCall =
    | DrawOval(box: Rect, paint: Paint)
    | DrawLine(from: Point, to: Point, paint: Paint)
    | DrawRect(box: Rect, paint: Paint)

  /** The draw call for one paint: Circle an oval in the box, Line and Path the
      canvas diagonal from the top-left corner, Rectangle the box, Triangle nothing. */
  function ShapeCall(shape: Shape, box: Rect, width: real, height: real, paint: Paint): Option<DrawCall> {
    match shape
    case Circle => Some(DrawOval(box, paint))
    case Line => Some(DrawLine(Origin, Point(width, height), paint))
    case Path => Some(DrawLine(Origin, Point(width, height), paint))
    case Rectangle => Some(DrawRect(box, paint))
    case Triangle => None
  }

  /** The calls of the pass: one per paint that the shape draws, in paint order. */
  function ShapeCalls(shape: Shape, box: Rect, width: real, height: real, paints: seq<Paint>): (calls: seq<DrawCall>)
    ensures |calls| == if shape == XamarinModels.Triangle then 0 else |paints|
  {
    if paints == [] then []
    else
      var first := match ShapeCall(shape, box, width, height, paints[0]) case Some(c) => [c] case None => [];
      first + ShapeCalls(shape, box, width, height, paints[1..])
  }

  /** Every shape but Triangle draws once per paint, with that paint, in paint order. */
  lemma {:induction false} ShapeCallsFollowPaints(shape: Shape, box: Rect, width: real, height: real, paints: seq<Paint>)
    requires shape != XamarinModels.Triangle
    ensures var calls := ShapeCalls(shape, box, width, height, paints);
      forall i :: 0 <= i < |calls| ==> calls[i].paint == paints[i]
  {
    if paints != [] {
      ShapeCallsFollowPaints(shape, box, width, height, paints[1..]);
    }
  }

  /** With a fill paint and a stroke paint, every shape but Triangle yields a
      fill call followed by a stroke call, and Triangle yields none. */
  lemma FillThenStroke(shape: Shape, box: Rect, width: real, height: real, fill: Paint, stroke: Paint)
    requires !fill.isStroke && stroke.isStroke
    ensures shape == XamarinModels.Triangle ==> ShapeCalls(shape, box, width, height, [fill, stroke]) == []
    ensures shape != XamarinModels.Triangle ==>
      var calls := ShapeCalls(shape, box, width, height, [fill, stroke]);
      |calls| == 2 && calls[0].paint == fill && calls[1].paint == stroke
  {
    assert [fill, stroke][1..] == [stroke];
    assert [stroke][1..] == [];
    assert ShapeCalls(shape, box, width, height, []) == [];
    var one := ShapeCalls(shape, box, width, height, [stroke]);
    assert shape == XamarinModels.Triangle ==> one == [];
    assert shape != XamarinModels.Triangle ==> |one| == 1 && one[0].paint == stroke;
  }

  class ShapeIcon {
    var shape: Shape
    var strokeColor: SKColor
    var strokeWidth: real
    /** The FillColor bindable property's stored value. */
    var fillStore: SKColor

    /** The bindable properties' default values. */
    constructor ()
      ensures shape == XamarinModels.Circle && strokeColor == Gray && strokeWidth == 1.0
      ensures fillStore == Transparent && FillColor() == None
    {
      shape, strokeColor, strokeWidth, fillStore := XamarinModels.Circle, Gray, 1.0, Transparent;
    }

    function FillColor(): (r: Option<SKColor>)
      reads this`fillStore
      ensures r != Some(Transparent)
    {
      FillFromStore(fillStore)
    }

    method SetFillColor(fill: Option<SKColor>)
      modifies this`fillStore
      ensures fillStore == StoreFromFill(fill)
      ensures FillColor() == if fill == Some(Transparent) then None else fill
    {
      fillStore := StoreFromFill(fill);
    }

    /** OnTouch: Entered, Pressed and Moved fire the touch handlers; every event
        is marked handled. */
    method OnTouch(action: TouchAction) returns (invokesTouch: bool, handled: bool)
      ensures invokesTouch <==> action in {XamarinDrawingPage.Entered, XamarinDrawingPage.Pressed, XamarinDrawingPage.Moved}
      ensures handled
    {
      invokesTouch := action == XamarinDrawingPage.Entered
        || action == XamarinDrawingPage.Pressed
        || action == XamarinDrawingPage.Moved;
      handled := true;
    }

    /** OnPaintSurface on a canvas of the given size: the fill paint and then
        the stroke paint, each drawn as the shape's figure. */
    method PaintSurface(width: real, height: real) returns (calls: seq<DrawCall>)
      ensures var pen := PenWidth(strokeWidth, width);
              var fill := Paint(Opaque(StoreFromFill(FillColor())), 0.0, false);
              var stroke := Paint(Opaque(strokeColor), pen, true);
              calls == ShapeCalls(shape, FigureBox(width, height, pen), width, height, [fill, stroke])
      ensures shape == XamarinModels.Triangle ==> calls == []
      ensures shape != XamarinModels.Triangle ==>
        |calls| == 2 && !calls[0].paint.isStroke && calls[1].paint.isStroke
        && calls[0].paint.color == Opaque(StoreFromFill(FillColor()))
        && calls[1].paint.color == Opaque(strokeColor)
    {
      var pen := PenWidth(strokeWidth, width);
      var strokeColor := strokeColor;
      if strokeColor != Transparent && Alpha(strokeColor) == 0 {
        strokeColor := WithAlpha(strokeColor, 255);
      }
      var strokePaint := Paint(strokeColor, pen, true);
      var fillColor := match FillColor() case Some(c) => c case None => Transparent;
      if fillColor != Transparent && Alpha(fillColor) == 0 {
        fillColor := WithAlpha(fillColor, 255);
      }
      var fillPaint := Paint(fillColor, 0.0, false);
      var box := FigureBox(width, height, pen);
      var paints := [fillPaint, strokePaint];
      calls := [];
      for i := 0 to |paints|
        invariant calls + ShapeCalls(shape, box, width, height, paints[i..])
               == ShapeCalls(shape, box, width, height, paints)
      {
        assert paints[i..][1..] == paints[i + 1..];
        match ShapeCall(shape, box, width, height, paints[i]) {
          case Some(c) => calls := calls + [c];
          case None =>
        }
      }
      assert paints[|paints|..] == [];
      FillThenStroke(shape, box, width, height, fillPaint, strokePaint);
    }
  }
}


=== FILE: xamarin_view_model.dfy ===
/** The Xamarin drawing view model: the viewport query over the shapes' stored
    rectangle fields, the single fixed-name subscription it keeps up to date,
    and the three pen settings. */
module XamarinViewModel {
  import opened SkiaColors

  /** An SKRect: the visible part of the board. */
  datatype SKRect = SKRect(left: real, top: real, right: real, bottom: real)

  /** The four stored fields of a shape that the query reads. */
  datatype Extent = Extent(left: real, top: real, right: real, bottom: real)

  /** The query `left < $0 AND right > $1 AND top < $2 AND bottom > $3` bound to
      the viewport's Right, Left, Bottom and Top. */
  predicate InViewPort(c: Extent, vp: SKRect) {
    c.left < vp.right && c.right > vp.left && c.top < vp.bottom && c.bottom > vp.top
  }

  /** A point strictly inside a rectangle given by its four edges. */
  predicate StrictlyInside(x: real, y: real, left: real, top: real, right: real, bottom: real) {
    left < x < right && top < y < bottom
  }

  /** For shapes and viewports of positive width and height, the query matches
      exactly the shapes whose interior meets the viewport's interior. */
  lemma {:induction false} InViewPortMeansInteriorsMeet(c: Extent, vp: SKRect)
    requires c.left < c.right && c.top < c.bottom
    requires vp.left < vp.right && vp.top < vp.bottom
    ensures InViewPort(c, vp) <==>
      exists x, y :: StrictlyInside(x, y, c.left, c.top, c.right, c.bottom)
                  && StrictlyInside(x, y, vp.left, vp.top, vp.right, vp.bottom)
  {
    if InViewPort(c, vp) {
      var lo := if c.left < vp.left then vp.left else c.left;
      var hi := if c.right < vp.right then c.right else vp.right;
      var tp := if c.top < vp.top then vp.top else c.top;
      var bt := if c.bottom < vp.bottom then c.bottom else vp.bottom;
      var x, y := (lo + hi) / 2.0, (tp + bt) / 2.0;
      assert StrictlyInside(x, y, c.left, c.top, c.right, c.bottom);
      assert StrictlyInside(x, y, vp.left, vp.top, vp.right, vp.bottom);
    }
  }

  /** A shape wholly right of, left of, below or above the viewport (touching
      edges included) is never matched. */
  lemma SeparatedShapeNotInViewPort(c: Extent, vp: SKRect)
    requires c.left >= vp.right || c.right <= vp.left || c.top >= vp.bottom || c.bottom <= vp.top
    ensures !InViewPort(c, vp)
  {
  }

  /** A viewport of zero width still matches every shape that straddles its
      vertical line and overlaps it vertically: the strict comparisons do not
      make a degenerate viewport match nothing. */
  lemma ZeroWidthViewPortMatchesStraddler(c: Extent, vp: SKRect)
    requires vp.left == vp.right
    ensures InViewPort(c, vp) <==> c.left < vp.left < c.right && c.top < vp.bottom && vp.top < c.bottom
  {
  }

  /** The name under which the viewport query is registered. */
  const ViewPortName: string := "viewPort"

  /** The subscription set after `Add(query, Name = "viewPort", UpdateExisting = true)`. */
  function WithViewPort(subs: map<string, SKRect>, vp: SKRect): (r: map<string, SKRect>)
    ensures ViewPortName in r && r[ViewPortName] == vp
    ensures forall n :: n != ViewPortName ==> (n in r <==> n in subs)
    ensures forall n :: n != ViewPortName && n in subs ==> r[n] == subs[n]
    ensures |r| == if ViewPortName in subs then |subs| else |subs| + 1
  {
    subs[ViewPortName := vp]
  }

  /** Updating the viewport twice leaves as many subscriptions as updating it
      once, and the last viewport wins. */
  lemma {:induction false} ViewPortUpdateSupersedes(subs: map<string, SKRect>, first: SKRect, second: SKRect)
    ensures WithViewPort(WithViewPort(subs, first), second) == WithViewPort(subs, second)
    ensures |WithViewPort(WithViewPort(subs, first), second)| == |WithViewPort(subs, first)|
  {
    var once := WithViewPort(subs, first);
    var twice := WithViewPort(once, second);
    assert twice.Keys == WithViewPort(subs, second).Keys;
  }

  /** Whether the subscription set syncs a shape: some subscription's query matches it. */
  predicate Subscribed(subs: map<string, SKRect>, c: Extent) {
    exists n :: n in subs && InViewPort(c, subs[n])
  }

  /** After an update the set syncs every shape in the new viewport. */
  lemma {:induction false} UpdatedViewPortIsSubscribed(subs: map<string, SKRect>, vp: SKRect, c: Extent)
    requires InViewPort(c, vp)
    ensures Subscribed(WithViewPort(subs, vp), c)
  {
    assert ViewPortName in WithViewPort(subs, vp);
  }

  class DrawingViewModel {
    var strokeColor: SKColor
    var strokeWidth: real
    var fillColor: SKColor
    /** The realm's subscription set, named queries keyed by name. */
    var subscriptions: map<string, SKRect>

    constructor (existing: map<string, SKRect>)
      ensures strokeColor == Empty && strokeWidth == 0.0 && fillColor == Empty
      ensures subscriptions == existing
    {
      strokeColor, strokeWidth, fillColor := Empty, 0.0, Empty;
      subscriptions := existing;
    }

    method SetStrokeColor(c: SKColor)
      modifies this`strokeColor
      ensures strokeColor == c
    {
      strokeColor := c;
    }

    method SetStrokeWidth(w: real)
      modifies this`strokeWidth
      ensures strokeWidth == w
    {
      strokeWidth := w;
    }

    method SetFillColor(c: SKColor)
      modifies this`fillColor
      ensures fillColor == c
    {
      fillColor := c;
    }

    /** UpdateSubscription: registers the viewport query under "viewPort",
        replacing the previous one of that name and leaving the others. */
    method UpdateSubscription(vp: SKRect)
      modifies this`subscriptions
      ensures subscriptions == WithViewPort(old(subscriptions), vp)
    {
      subscriptions := subscriptions[ViewPortName := vp];
    }
  }
}
